=== FILE: README.md ===
# Budget tracker: aggregation, form and update logic

A Dafny model of the logic inside the budget tracker's two front-end scripts
(`script.js` and `frontend/script.js`) and of its REST controller
(`TransactionController.java`). The scripts fetch the transaction list and derive
the figures they display from it: the income/expense/net summary, the top expense
category, a two-point spending trend, the monthly budget alert, and the data for the
pie, bar and line charts. They also handle the add/edit form, whose `editId` variable
decides between creating and updating a record. The controller lists, adds, updates
and deletes records in a repository.

Every aggregation is modelled as a pure fold or filter over `seq<Transaction>`, with
exact amounts (`real`). The two scripts agree on the summary, budget, charts and form.
These are modelled once and cite `script.js`; the matching lines of
`frontend/script.js` are 56-65, 112-127, 133-187 and 210-232. The scripts differ in
three places, and each difference is modelled separately:

- the trend: the root script uses list order; the frontend script sorts by date first.
- the early return on an empty list, which only the frontend script has.
- the type/search filter, which only the frontend script has.

Modules, one per file:

- `Wrappers`: `Option` and `Result`.
- `Strings`: JavaScript string comparison, `startsWith`, `substring`, `includes`, `toLowerCase` and `trim`.
- `Sorting`: the stable sort behind `Array.prototype.sort`.
- `Transactions`: the record and its folds.
- `Grouping`: an object used as an accumulator, as a map plus its key insertion order.
- `Summary`, `Insights`, `Budget`, `Charts`, `Filters`: the script functions of the same names.
- `EditForm`: the submit handler, `editTransaction` and `deleteTransaction`.
- `Controller`: the REST controller over a `map<int, Transaction>` store.
- `Sync`: the client's request body meeting the controller's update: what a saved edit stores.

Three behaviours of the code worth knowing:

- The summary counts every record not typed "income" as expense. It does not sum by kind.
- The bar chart's category totals cover records of every type. The insights use expenses only.
- The top category falls back to `("-", 0)` whenever no category has a positive expense total. So the sentinel also appears when expenses exist but no category totals above 0.

## Model

| member | source | states |
|---|---|---|
| Summary.SummaryFold | script.js:53-57 | the ternary `forEach` leaves income = the sum of amounts typed "income" and expense = the sum of amounts of every other type |
| Summary.UpdateSummary | script.js:52-62 | income and expense as above; net = income − expense; income + expense is the sum of all amounts, so each record is counted exactly once |
| Summary.PieSlices | script.js:191-194 | the pie's income and expense slices plus the records of any other type add up to the sum of all amounts |
| Summary.SummaryVersusPie | script.js:191-194 | the summary's income equals the pie's income; the summary's expense equals the pie's expense plus all records typed neither "income" nor "expense" |
| Summary.SummaryAgreesWithPie | script.js:191-194 | when every record is typed "income" or "expense", summary and pie agree |
| Summary.SummaryAndPieDisagreeOnOtherTypes | script.js:56 | a record typed "Expense" counts 250 as expense in the summary but is in neither pie slice |
| Transactions.Total | script.js:111 | the sum of the amounts, folded from 0 in list order; KindSplit and GroupByValuesSum relate it to the per-type and per-category sums |
| Transactions.Expenses | script.js:90 | the records whose type is exactly "expense", in list order (the type filter of OfKind, whose contents OfKindMembers fixes) |
| Transactions.OfKindMembers | script.js:191-193 | `filter(t => t.type === k)` keeps exactly the records of the list whose type is `k` |
| Grouping.GroupBy | script.js:196-200 | adding each amount to its key's running total (missing counts as 0) over a list yields exactly the keys occurring in it, each with the sum of that key's amounts, listed in order of first occurrence |
| Grouping.Accumulate | script.js:72-73 | adding `a` to a key of the accumulator object: the key's total grows by `a`, starting from 0 for a key not yet present, which is then appended to the key order; every other key keeps its total |
| Grouping.GroupByValuesSum | script.js:196-200 | the bar chart's category totals add up to the sum of all amounts |
| Insights.TopIndex | script.js:77-85 | the scan picks the first entry holding the strictly greatest value, and only if that value is positive; it picks none exactly when no value is positive |
| Insights.TopCategory | script.js:77-88 | the scan over the totals yields `("-", 0)` iff no total is positive; otherwise a key of the object with its total, which is positive and at least every other total |
| Insights.TopExpenseCategory | script.js:67-88 | the insights' top category is `("-", 0)` or an expense category with its positive expense total |
| Insights.ExpenseByCategory | script.js:68-75 | the insight totals group only records typed "expense", by category |
| Insights.TopExpenseCategoryIsFirstLargest | script.js:68-88 | the top category is `("-", 0)` iff no category has a positive expense total; otherwise it is a category whose total is positive and maximal, and every category first seen earlier has a strictly smaller total |
| Insights.LastTwoTrend | script.js:91-96 | a trend exists iff there are at least two entries; it is Increasing iff the last amount is strictly greater than the one before, so equal amounts give Decreasing |
| Insights.ListOrderTrend | script.js:90-99 | the root script reports a trend iff there are at least two expenses; which one is stated by ListOrderTrendComparesLastTwo |
| Insights.DateOrderTrend | frontend/script.js:95-106 | the frontend script reports a trend iff there are at least two expenses; which one is stated by DateOrderTrendComparesLastTwo |
| Insights.ListOrderTrendComparesLastTwo | script.js:90-99 | stated on the list itself: if `s[i]` and `s[j]` are the last two expenses, the root script's trend compares `s[j]` with `s[i]` |
| Insights.DateOrderTrendComparesLastTwo | frontend/script.js:95-106 | stated on the expense list in list order: if `e[b]` comes last in (date, position) order and `e[a]` last among the others, the frontend script's trend compares `e[b]` with `e[a]` |
| Insights.RootInsights | script.js:67-101 | the root script's insights report a trend iff there are at least two expenses |
| Insights.RootInsightsWithoutExpenses | script.js:77-91 | on an empty or income-only list the root script shows `("-", 0)` and leaves the trend alone |
| Insights.FrontendInsights | frontend/script.js:71-107 | returns nothing iff the list is empty; otherwise the same top category as the root script, a trend iff there are two expenses, and everything equal to the root script's when the expenses are already in date order |
| Insights.DateOrderTrendOfDateOrderedList | frontend/script.js:95-106 | when the expenses are already in date order, the date-sorted trend equals the list-order trend |
| Insights.TrendOfRisingPair | script.js:90-99 | expenses of 100 then 150 give Increasing in both scripts |
| Insights.TrendOfFallingPair | frontend/script.js:95-106 | expenses of 150 then 100 give Decreasing in both scripts |
| Insights.DatedPairTrend | frontend/script.js:95-106 | for two expenses already in date order, both scripts compare the second amount with the first |
| Insights.SwappedPairTrend | frontend/script.js:95-106 | for two expenses listed against date order, the root script compares them as listed and the frontend script the other way round |
| Insights.TrendScriptsDisagree | frontend/script.js:95-103 | 150 dated the 10th listed before 100 dated the 1st: Decreasing in list order, Increasing in date order |
| Sorting.SortBy | frontend/script.js:95-97 | the sort result is in ascending date order and is a permutation of the input |
| Sorting.SortByStable | frontend/script.js:97 | for every date, the records with that date keep their list order through the sort |
| Sorting.SortBySortedIsIdentity | frontend/script.js:97 | sorting an already date-ordered list returns it unchanged |
| Sorting.SortByLast | frontend/script.js:97 | the element that comes last in (date, position) order ends the sorted list, preceded by the sorted rest |
| Budget.MonthExpenses | script.js:109-110 | keeps exactly the records typed "expense" whose date starts with the month |
| Budget.CheckBudget | script.js:106-123 | the alert fires iff the month's expense sum exceeds 6000, and then reports sum − 6000, which is positive |
| Budget.MonthSpendIsMonthlySeriesPoint | script.js:109-111 | for a `YYYY-MM` month, the amount the alert checks equals that month's total in the line chart's series |
| Budget.AtLimitNoAlert | script.js:116 | spending of exactly 6000 raises no alert |
| Budget.OverLimitAlert | script.js:116-119 | 4000 + 2500 in the month, plus 9000 from another month, exceed the limit by 500 |
| Charts.SortedKeys | script.js:211 | sorting distinct keys gives a strictly ascending list of the same keys |
| Charts.MonthlySeries | script.js:202-212 | the months are strictly ascending and are exactly the distinct `YYYY-MM` prefixes of expense dates; the amounts list has the same length, and each amount is that month's expense total |
| Charts.CategoryBars | script.js:196-240 | the bar labels are the distinct categories of all records, in the order each first appears, with no repeats; each bar value is that category's total, and the values sum to the grand total |
| Charts.UpdateCharts | script.js:190-212 | the pie is exactly the income and expense totals of PieSlices, and with the other-typed records they partition the grand total; the bar labels follow the order in which each category first appears; the bar labels are the distinct categories of all records with their totals, summing to the grand total (as in CategoryBars); the line series is as in MonthlySeries |
| Filters.Matches | frontend/script.js:197-201 | a record passes iff the type filter is "all" or equals its type, and the lower-cased search text occurs in its lower-cased category or in its lower-cased description, a missing description counting as "" |
| Filters.ApplyFilters | frontend/script.js:192-205 | the result is an order-preserving subsequence of the list; a record is kept iff the type filter is "all" or equals its type, and the lower-cased search text occurs in its lower-cased category or description, a missing description counting as "" |
| Filters.SearchIgnoresCase | frontend/script.js:194-200 | the search is case-insensitive: searching for the lower-cased text keeps the same records |
| Filters.NoFilterKeepsEverything | frontend/script.js:196-202 | "all" with an empty search returns the whole list |
| Filters.ApplyFiltersIdempotent | frontend/script.js:196-202 | filtering the filtered list again with the same settings changes nothing |
| Filters.ApplyFiltersCounts | frontend/script.js:196-202 | a record that passes both filters keeps all of its copies in the result, and a record that fails them has none |
| Filters.IncomeRentExample | frontend/script.js:196-202 | "income" with "RENT" keeps the income categorised Rent and drops the Rent expense and the Salary income |
| Strings.Trim | script.js:133 | `trim()` returns the infix left after removing only white space from both ends, and the result neither starts nor ends with white space |
| EditForm.Acceptable | script.js:139 | the negation of the refusal test (a falsy type, a falsy category, or an amount at most 0): the type and category are non-empty and the amount is positive |
| EditForm.ReadForm | script.js:131-142 | `tx` keeps the type, amount and date as entered, and its category and description are exactly the typed text with leading and trailing whitespace removed; the validity guard (Acceptable, the negation of the refusal test) passes iff the type is non-empty, the category not blank and the amount positive |
| Strings.Contains | frontend/script.js:199-200 | `h.includes(n)` holds iff `n` starts `h` or occurs in `h` past its first character, i.e. at some offset; ContainsAt and ContainsOccurs prove both directions of that reading |
| Strings.ContainsAt | frontend/script.js:199 | `includes` holds whenever the needle occurs at some offset |
| Strings.ContainsOccurs | frontend/script.js:199-200 | conversely, whenever `includes` holds, the needle occurs at some offset, which the lemma returns |
| Strings.Lower | frontend/script.js:194-200 | `toLowerCase` keeps the length and maps each character through the A-Z lower-casing |
| Strings.LowerIdempotent | frontend/script.js:194-200 | lower-casing the already lower-cased search text changes nothing |
| Strings.StartsWith | script.js:110 | `s.startsWith(p)` holds iff `p` is no longer than `s` and equals the prefix of `s` of its own length |
| Strings.Take | script.js:205 | `substring(0, 7)` returns the first 7 characters, or the whole string when it is shorter, and is always a prefix |
| Transactions.MonthOfIffStartsWith | script.js:110 | for a seven-character month, the alert's `startsWith(month)` agrees with the chart's `substring(0, 7) === month` |
| EditForm.Submit | script.js:128-161 | a submission is refused, sending nothing and keeping `editId`, iff the type is empty, the category is blank or the amount is ≤ 0; otherwise it PUTs to `editId` when set and POSTs when not, then reloads, and `editId` is null afterwards |
| EditForm.FindIndex | script.js:167 | `find` locates the first record with the id, or none exactly when no record has it |
| EditForm.FormOf | script.js:169-173 | the five inputs take the record's type, category, amount, date and description, a null description showing as ""; EditedFormRoundTrip proves reading the form back gives the record's fields |
| EditForm.EditTransaction | script.js:166-176 | for a listed id, the form is filled from the first record with that id and `editId` becomes that id; for an unlisted id the lookup throws, so the state and form stay unchanged |
| EditForm.DeleteTransaction | script.js:181-185 | nothing is sent unless the deletion is confirmed; then DELETE for that id, then a reload |
| EditForm.EditThenSubmitUpdatesThatRecord | script.js:144-150 | edit on a listed id followed by a valid submit PUTs to that id and leaves edit mode |
| EditForm.SubmitWithoutEditPosts | script.js:151-157 | with no edit in progress, a valid submit POSTs and stays out of edit mode |
| EditForm.EditedFormRoundTrip | script.js:131-137 | reading back the form that `editTransaction` filled from a valid, already-trimmed record reproduces the record's fields |
| EditForm.EditThenResubmit | script.js:166-176 | edit then unchanged submit of such a record PUTs the record's own values to its id |
| EditForm.NullDescriptionBecomesEmpty | script.js:173 | a record without a description comes back from the form with description "" |
| Controller.GetAll | budgettracker/src/main/java/com/budget/budgettracker/controller/TransactionController.java:19-22 | in a store where each record is filed under its own id, the listing holds exactly the stored records |
| Controller.Add | budgettracker/src/main/java/com/budget/budgettracker/controller/TransactionController.java:25-28 | the returned record carries the body's five fields and the new id; it is stored under that id; all other records are unchanged |
| Controller.AddedIsListed | budgettracker/src/main/java/com/budget/budgettracker/controller/TransactionController.java:25-28 | the record add returns is listed afterwards, and so is every earlier record |
| Controller.Update | budgettracker/src/main/java/com/budget/budgettracker/controller/TransactionController.java:31-46 | fails with "Transaction not found" iff the id is not stored; otherwise the record at that id takes the body's type, category, amount, date and description, keeps its stored id, and no other record changes |
| Controller.UpdateIgnoresBodyId | budgettracker/src/main/java/com/budget/budgettracker/controller/TransactionController.java:39-43 | the id inside the body has no effect on an update |
| Controller.UpdateWithStoredValues | budgettracker/src/main/java/com/budget/budgettracker/controller/TransactionController.java:36-45 | an update whose body carries the stored record's own values leaves the store exactly as it was |
| Controller.UpdateIdempotent | budgettracker/src/main/java/com/budget/budgettracker/controller/TransactionController.java:39-45 | applying the same update twice has the effect of applying it once |
| Controller.Delete | budgettracker/src/main/java/com/budget/budgettracker/controller/TransactionController.java:49-52 | the id is gone, all other records are unchanged, and an unknown id changes nothing |
| Controller.DeletedIsNotListed | budgettracker/src/main/java/com/budget/budgettracker/controller/TransactionController.java:49-52 | after a delete, no listed record has that id |
| Sync.EditSaveWithoutChangesKeepsRecord | budgettracker/src/main/java/com/budget/budgettracker/controller/TransactionController.java:36-45 | editing a listed record and saving the untouched form PUTs to its id, and the update stores the record unchanged |
| Sync.SubmittedEditIsStored | script.js:131-150 | saving an acceptable form while editing record `id` PUTs the trimmed draft to `id` and leaves edit mode; the service's update (TransactionController.java:36-45) then holds, under `id`, the record with the typed type, amount and date and the trimmed category and description, keeps every other record, and keeps each record under its own id |

## Left out

- Network calls (`fetch`), JSON (de)serialisation and unhandled rejections. Each call appears only as a `Request` value, and `Reload` stands for `loadTransactions()`. The PUT body `JSON.stringify(tx)` is modelled only as the field mapping `Sync.BodyOf`: the service reads no id and always finds a description, and number and string encoding are not modelled.
- DOM work: table row templating, `innerText`, `alert` and `confirm`. `confirm` is a boolean input to `DeleteTransaction`. The alert texts are not modelled. Neither is the root script's `if (!alertBox) return`, nor `e.target.reset()`.
- Chart.js instance creation, destruction and styling. Only the data given to the charts is modelled.
- `toFixed` formatting and floating-point arithmetic. Amounts are exact. A `NaN` from `parseFloat` would slip past `amount <= 0`, but this float artefact is not modelled: the form's amount is an already-parsed number.
- The clock read in `checkBudgetLimit`. The current month is a parameter.
- `new Date(...)` in the frontend sort comparator. Dates are ISO `YYYY-MM-DD` strings, and their string order is taken as chronological. Invalid dates are not modelled.
- JavaScript's `for...in` order for integer-like keys. Object keys are taken in insertion order.
- Grouping.Accumulate: treats every key as an own property that starts from 0. A plain `{}` object inherits `Object.prototype` members. A category or month named "constructor", "toString", "valueOf" or the like therefore starts from a function, and its total becomes a string that never wins the `> maxAmount` comparison. A key "__proto__" is dropped altogether.
- Transactions.Transaction: type, category and date are never null. The service stores nullable fields without validation, and the form never checks the date. A null date makes `startsWith`/`substring` throw, and a null category makes `toLowerCase` throw, aborting the render. The model does not cover these aborts.
- Strings.LexLe: compares Unicode scalar values, whereas JavaScript compares UTF-16 code units. The two orders differ only for characters outside the Basic Multilingual Plane.
- Strings.Lower: lower-cases only the Basic Latin capitals A-Z. JavaScript's `toLowerCase` uses full Unicode case mapping.
- EditForm.EditTransaction: an `undefined` description would show as "undefined" in the form. The model treats every missing description as `null`, which shows as "".
- Controller.GetAll: returns the stored records as a set. The repository's listing order is not visible.
- Controller.Add: a POST body that carries an id is saved under the fresh id. JPA's `save` would instead merge such a body into that id, and how it does so depends on the JPA version. The front-end never sends an id.
- Controller.Delete: a delete of an unknown id does nothing. Some Spring Data versions throw instead.
- Spring annotations, CORS, JPA persistence, identity generation (the new id is a parameter) and `LocalDate` parsing.
- The repository interface `TransactionRepository` is not part of this model. It is modelled only as a map.
- Races between overlapping asynchronous submit, delete and refresh calls.

=== FILE: budget.dfy ===
/**
 * `checkBudgetLimit` in both scripts: the expenses dated in the current month against a
 * fixed limit. The current month (`new Date().toISOString().slice(0, 7)`) is a parameter.
 */
module Budget {
  import opened Wrappers
  import opened Strings
  import opened Transactions
  import opened Grouping

  /** `MONTHLY_BUDGET_LIMIT`. */
  const MONTHLY_BUDGET_LIMIT: real := 6000.0

  datatype BudgetStatus = WithinBudget | Exceeded(overBy: real)

  /** `filter(t => t.type === "expense" && t.date.startsWith(month))`. */
  function MonthExpenses(s: seq<Transaction>, month: string): (r: seq<Transaction>)
    ensures forall t :: t in r <==> t in s && t.kind == EXPENSE && StartsWith(t.date, month)
  {
    if s == [] then []
    else
      var p := MonthExpenses(s[..|s| - 1], month);
      var t := s[|s| - 1];
      assert s == s[..|s| - 1] + [t];
      if t.kind == EXPENSE && StartsWith(t.date, month) then p + [t] else p
  }

  /** The alert fires exactly when the month's expenses exceed the limit, by the excess. */
  function CheckBudget(s: seq<Transaction>, month: string): (r: BudgetStatus)
    ensures r.Exceeded? <==> Total(MonthExpenses(s, month)) > MONTHLY_BUDGET_LIMIT
    ensures r.Exceeded? ==> r.overBy > 0.0 && r.overBy + MONTHLY_BUDGET_LIMIT == Total(MonthExpenses(s, month))
  {
    var spent := Total(MonthExpenses(s, month));
    if spent > MONTHLY_BUDGET_LIMIT then Exceeded(spent - MONTHLY_BUDGET_LIMIT) else WithinBudget
  }

  /**
   * For a `YYYY-MM` month, the amount the alert compares is that month's point of the
   * monthly expense series (0 for a month with no expenses).
   */
  lemma {:induction false} MonthSpendIsMonthlySeriesPoint(s: seq<Transaction>, month: string)
    requires |month| == 7
    ensures Total(MonthExpenses(s, month)) == KeyTotal(Expenses(s), MonthOf, month)
  {
    if s != [] {
      var p := s[..|s| - 1];
      var t := s[|s| - 1];
      MonthSpendIsMonthlySeriesPoint(p, month);
      MonthOfIffStartsWith(t, month);
      var e := Expenses(s);
      if t.kind == EXPENSE {
        assert e[..|e| - 1] == Expenses(p);
      }
    }
  }

  /** Spending of exactly the limit raises no alert. */
  lemma AtLimitNoAlert()
    ensures CheckBudget([Transaction(1, EXPENSE, "Rent", 6000.0, "2024-05-03", None)], "2024-05") == WithinBudget
  {
    var s := [Transaction(1, EXPENSE, "Rent", 6000.0, "2024-05-03", None)];
    assert StartsWith(s[0].date, "2024-05");
    assert s[..0] == [];
    assert MonthExpenses(s, "2024-05") == s;
    assert Total(s) == Total(s[..0]) + 6000.0;
  }

  /** Expenses of 4000 and 2500 in the month, with one from another month, exceed the limit by 500. */
  lemma OverLimitAlert()
    ensures var s := [
        Transaction(1, EXPENSE, "Rent", 4000.0, "2024-05-03", None),
        Transaction(2, EXPENSE, "Food", 9000.0, "2024-04-28", None),
        Transaction(3, EXPENSE, "Travel", 2500.0, "2024-05-20", None)];
      CheckBudget(s, "2024-05") == Exceeded(500.0)
  {
    var a := Transaction(1, EXPENSE, "Rent", 4000.0, "2024-05-03", None);
    var b := Transaction(2, EXPENSE, "Food", 9000.0, "2024-04-28", None);
    var c := Transaction(3, EXPENSE, "Travel", 2500.0, "2024-05-20", None);
    assert StartsWith(a.date, "2024-05") && StartsWith(c.date, "2024-05");
    assert b.date[..7][6] == '4';
    assert !StartsWith(b.date, "2024-05");
    assert [a, b, c][..2] == [a, b] && [a, b][..1] == [a] && [a][..0] == [];
    assert MonthExpenses([a], "2024-05") == [a];
    assert MonthExpenses([a, b], "2024-05") == [a];
    assert MonthExpenses([a, b, c], "2024-05") == [a, c];
    assert [a, c][..1] == [a];
    assert Total([a, c]) == Total([a]) + 2500.0 == Total([]) + 4000.0 + 2500.0;
  }
}

=== FILE: charts.dfy ===
/**
 * The data `updateCharts` feeds to its three charts (identical in both scripts):
 * the pie's income/expense slices, the bar chart's per-category totals over ALL records,
 * and the line chart's monthly expense series with its months in ascending order.
 */
module Charts {
  import opened Strings
  import opened Sorting
  import opened Transactions
  import opened Grouping
  import opened Summary

  datatype ChartData = ChartData(
    pie: (real, real),
    barLabels: seq<string>,
    barValues: seq<real>,
    months: seq<string>,
    monthlyAmounts: seq<real>)

  /** A string as its own sort key: `Array.prototype.sort()` with no comparator. */
  function Itself(x: string): string
  {
    x
  }

  /** `keys.sort()` on distinct keys: strictly ascending, and the same keys. */
  lemma SortedKeys(keys: seq<string>)
    requires NoDuplicates(keys)
    ensures var r := SortBy(keys, Itself);
      && (forall i, j :: 0 <= i < j < |r| ==> LexLt(r[i], r[j]))
      && (forall k :: k in r <==> k in keys)
  {
    var r := SortBy(keys, Itself);
    SortByKeepsNoDuplicates(keys, Itself);
    forall k ensures k in r <==> k in keys {
      assert k in r <==> k in multiset(r);
      assert k in keys <==> k in multiset(keys);
    }
    forall i, j | 0 <= i < j < |r| ensures LexLt(r[i], r[j]) {
      SortedByPairwise(r, Itself, i, j);
    }
  }

  /** `Object.keys(monthlyExpense).sort()` and the totals read back in that order. */
  function MonthlySeries(s: seq<Transaction>): (r: (seq<string>, seq<real>))
    ensures |r.0| == |r.1|
    ensures forall i, j :: 0 <= i < j < |r.0| ==> LexLt(r.0[i], r.0[j])
    ensures forall m :: m in r.0 <==> m in KeysOf(Expenses(s), MonthOf)
    ensures forall i :: 0 <= i < |r.0| ==> r.1[i] == KeyTotal(Expenses(s), MonthOf, r.0[i])
  {
    var g := GroupBy(Expenses(s), MonthOf);
    var months := SortBy(g.order, Itself);
    SortedKeys(g.order);
    (months, ValuesAt(months, g.totals))
  }

  /** The bar chart: categories in first-seen order over ALL records, each with its total. */
  function CategoryBars(s: seq<Transaction>): (r: (seq<string>, seq<real>))
    ensures |r.0| == |r.1|
    ensures NoDuplicates(r.0)
    ensures forall i, j :: 0 <= i < j < |r.0| ==>
      FirstIndex(s, CategoryOf, r.0[i]) < FirstIndex(s, CategoryOf, r.0[j])
    ensures forall c :: c in r.0 <==> c in KeysOf(s, CategoryOf)
    ensures forall i :: 0 <= i < |r.0| ==> r.1[i] == KeyTotal(s, CategoryOf, r.0[i])
    ensures Sum(r.1) == Total(s)
  {
    var bars := GroupBy(s, CategoryOf);
    GroupByValuesSum(s, CategoryOf);
    (bars.order, bars.Values())
  }

  /** The data behind the pie, bar and line charts. */
  function UpdateCharts(s: seq<Transaction>): (r: ChartData)
    ensures r.pie == PieSlices(s)
    ensures r.pie.0 + r.pie.1 + Total(OtherKinds(s)) == Total(s)
    ensures |r.barLabels| == |r.barValues|
    ensures NoDuplicates(r.barLabels)
    ensures forall i, j :: 0 <= i < j < |r.barLabels| ==>
      FirstIndex(s, CategoryOf, r.barLabels[i]) < FirstIndex(s, CategoryOf, r.barLabels[j])
    ensures forall c :: c in r.barLabels <==> c in KeysOf(s, CategoryOf)
    ensures forall i :: 0 <= i < |r.barLabels| ==> r.barValues[i] == KeyTotal(s, CategoryOf, r.barLabels[i])
    ensures Sum(r.barValues) == Total(s)
    ensures |r.months| == |r.monthlyAmounts|
    ensures forall i, j :: 0 <= i < j < |r.months| ==> LexLt(r.months[i], r.months[j])
    ensures forall m :: m in r.months <==> m in KeysOf(Expenses(s), MonthOf)
    ensures forall i :: 0 <= i < |r.months| ==> r.monthlyAmounts[i] == KeyTotal(Expenses(s), MonthOf, r.months[i])
  {
    var pie := PieSlices(s);
    var (labels, values) := CategoryBars(s);
    var (months, amounts) := MonthlySeries(s);
    ChartData(pie, labels, values, months, amounts)
  }
}

=== FILE: controller.dfy ===
/**
 * `TransactionController` of the REST service over its repository. The repository is
 * modelled as a map from id to the stored record; the id a new record receives (the
 * database's identity column) is a parameter.
 */
module Controller {
  import opened Wrappers
  import opened Transactions

  /** The repository: stored records by id. */
  type Store = map<int, Transaction>

  /** Each record is stored under its own id. */
  predicate WellFormed(store: Store)
  {
    forall id :: id in store ==> store[id].id == id
  }

  /** A request body as deserialised into a `Transaction`: the id is present only if the client sent one. */
  datatype Body = Body(id: Option<int>, kind: string, category: string, amount: real, date: string, description: Option<string>)

  /** The message of the exception `updateTransaction` throws for an unknown id. */
  const NOT_FOUND: string := "Transaction not found"

  /** `getAllTransactions`: every stored record (the repository's listing order is not modelled). */
  function GetAll(store: Store): (r: set<Transaction>)
    ensures WellFormed(store) ==> forall t :: t in r <==> t.id in store && store[t.id] == t
  {
    set id | id in store :: store[id]
  }

  /** `addTransaction`: saves the body as a new record under `freshId` and returns it. */
  function Add(store: Store, body: Body, freshId: int): (r: (Store, Transaction))
    requires freshId !in store
    ensures r.1.id == freshId && r.1.kind == body.kind && r.1.category == body.category
      && r.1.amount == body.amount && r.1.date == body.date && r.1.description == body.description
    ensures r.0.Keys == store.Keys + {freshId}
    ensures r.0[freshId] == r.1
    ensures forall id :: id in store ==> r.0[id] == store[id]
    ensures WellFormed(store) ==> WellFormed(r.0)
  {
    var saved := Transaction(freshId, body.kind, body.category, body.amount, body.date, body.description);
    (store[freshId := saved], saved)
  }

  /**
   * `updateTransaction`: fails with "Transaction not found" for an id not in the store;
   * otherwise copies type, category, amount, date and description from the body onto the
   * stored record, which keeps its id, and saves it.
   */
  function Update(store: Store, id: int, body: Body): (r: Result<(Store, Transaction)>)
    ensures r.Failure? <==> id !in store
    ensures r.Failure? ==> r.error == NOT_FOUND
    ensures r.Success? ==>
      && r.value.1.id == store[id].id
      && r.value.1.kind == body.kind
      && r.value.1.category == body.category
      && r.value.1.amount == body.amount
      && r.value.1.date == body.date
      && r.value.1.description == body.description
    ensures r.Success? ==>
      && r.value.0.Keys == store.Keys
      && r.value.0[id] == r.value.1
      && forall k :: k in store && k != id ==> r.value.0[k] == store[k]
    ensures r.Success? && WellFormed(store) ==> WellFormed(r.value.0)
  {
    if id !in store then Failure(NOT_FOUND)
    else
      var existing := store[id];
      var updated := existing.(kind := body.kind, category := body.category, amount := body.amount,
                               date := body.date, description := body.description);
      Success((store[id := updated], updated))
  }

  /** `deleteTransaction`: removes the record with that id; an unknown id leaves the store as it is. */
  function Delete(store: Store, id: int): (r: Store)
    ensures id !in r
    ensures r.Keys == store.Keys - {id}
    ensures forall k :: k in r ==> r[k] == store[k]
  {
    store - {id}
  }

  /** After a delete, the listing holds no record with that id. */
  lemma DeletedIsNotListed(store: Store, id: int)
    requires WellFormed(store)
    ensures forall t :: t in GetAll(Delete(store, id)) ==> t.id != id
  {
  }

  /** The record `addTransaction` returns is in the listing afterwards, along with every earlier record. */
  lemma AddedIsListed(store: Store, body: Body, freshId: int)
    requires WellFormed(store) && freshId !in store
    ensures Add(store, body, freshId).1 in GetAll(Add(store, body, freshId).0)
    ensures GetAll(store) <= GetAll(Add(store, body, freshId).0)
  {
    var (s', t) := Add(store, body, freshId);
    assert s'[freshId] == t;
    forall u | u in GetAll(store) ensures u in GetAll(s') {
      assert s'[u.id] == u;
    }
  }

  /** The id inside the body plays no part in an update. */
  lemma UpdateIgnoresBodyId(store: Store, id: int, body: Body, otherId: Option<int>)
    ensures Update(store, id, body) == Update(store, id, body.(id := otherId))
  {
  }

  /** An update that carries the stored record's own values leaves the store as it was. */
  lemma UpdateWithStoredValues(store: Store, id: int, body: Body)
    requires id in store
    requires var t := store[id];
      && body.kind == t.kind && body.category == t.category && body.amount == t.amount
      && body.date == t.date && body.description == t.description
    ensures Update(store, id, body) == Success((store, store[id]))
  {
    var t := store[id];
    var updated := t.(kind := body.kind, category := body.category, amount := body.amount,
                      date := body.date, description := body.description);
    assert updated == t;
    assert store[id := t] == store;
  }

  /** Sending the same update twice has the effect of sending it once. */
  lemma UpdateIdempotent(store: Store, id: int, body: Body)
    requires id in store
    ensures var once := Update(store, id, body).value;
      Update(once.0, id, body) == Success(once)
  {
    var once := Update(store, id, body).value;
    assert once.0[id := once.1] == once.0;
  }
}

=== FILE: editform.dfy ===
/**
 * The transaction form of both scripts: the submit handler's validation, the `editId`
 * state that decides between creating (POST) and updating (PUT), `editTransaction`,
 * which loads a record into the form, and `deleteTransaction`. Network calls appear only
 * as the requests issued, in order; `Reload` is the `loadTransactions()` refresh.
 */
module EditForm {
  import opened Wrappers
  import opened Strings
  import opened Transactions

  /** The raw values of the form's inputs; the amount is taken as already parsed. */
  datatype FormFields = FormFields(kind: string, category: string, amount: real, date: string, description: string)

  /** The `tx` object the handler sends: no id, category and description trimmed. */
  datatype Draft = Draft(kind: string, category: string, amount: real, date: string, description: string)

  /** A request issued to the REST endpoint. */
  datatype Request = Post(body: Draft) | Put(id: int, body: Draft) | Delete(id: int) | Reload

  /** The script's module state: `editId`, the record being edited, or none. */
  datatype EditState = EditState(editId: Option<int>)

  /** The state the page starts in: `let editId = null`. */
  const Initial: EditState := EditState(None)

  /** The guard `!tx.type || !tx.category || tx.amount <= 0`, negated. */
  predicate Acceptable(d: Draft)
  {
    d.kind != "" && d.category != "" && d.amount > 0.0
  }

  /**
   * Builds `tx` from the inputs: type, amount and date as entered, category and
   * description without surrounding white space. The guard on `tx` therefore refuses
   * exactly the forms whose type is empty, whose category is blank or whose amount is
   * not positive.
   */
  function ReadForm(f: FormFields): (r: Draft)
    ensures r.kind == f.kind && r.amount == f.amount && r.date == f.date
    ensures r.category == Trim(f.category) && r.description == Trim(f.description)
    ensures Trimmed(r.category) && Trimmed(r.description)
    ensures Acceptable(r) <==> f.kind != "" && !Blank(f.category) && f.amount > 0.0
  {
    TrimEmptyIffBlank(f.category);
    Draft(f.kind, Trim(f.category), f.amount, f.date, Trim(f.description))
  }

  /**
   * The submit handler. A submission is refused, issuing nothing and keeping `editId`,
   * exactly when the type is empty, the category is blank or the amount is not positive.
   * Otherwise it PUTs to `editId` when one is set and POSTs when none is, then reloads,
   * and `editId` is null afterwards.
   */
  function Submit(st: EditState, f: FormFields): (r: (EditState, seq<Request>))
    ensures r.1 == [] <==> f.kind == "" || Blank(f.category) || f.amount <= 0.0
    ensures r.1 == [] ==> r.0 == st
    ensures r.1 != [] ==> r.0.editId.None? && |r.1| == 2 && r.1[1] == Reload
    ensures r.1 != [] && st.editId.Some? ==> r.1[0] == Put(st.editId.value, ReadForm(f))
    ensures r.1 != [] && st.editId.None? ==> r.1[0] == Post(ReadForm(f))
  {
    var tx := ReadForm(f);
    if !Acceptable(tx) then (st, [])
    else match st.editId
      case Some(id) => (EditState(None), [Put(id, tx), Reload])
      case None => (st, [Post(tx), Reload])
  }

  /** `allTransactions.find(x => x.id === id)`, as a position: the first record with that id. */
  function FindIndex(all: seq<Transaction>, id: int): (r: Option<nat>)
    ensures r.None? <==> forall i :: 0 <= i < |all| ==> all[i].id != id
    ensures r.Some? ==>
      && r.value < |all|
      && all[r.value].id == id
      && forall i :: 0 <= i < r.value ==> all[i].id != id
  {
    if all == [] then None
    else if all[0].id == id then Some(0)
    else match FindIndex(all[1..], id)
      case None => None
      case Some(i) => Some(i + 1)
  }

  /** The inputs as `editTransaction` fills them from a record; a null description shows as "". */
  function FormOf(t: Transaction): FormFields
  {
    FormFields(t.kind, t.category, t.amount, t.date, t.description.GetOr(""))
  }

  /**
   * `editTransaction(id)`: loads the first record with that id into the form and sets
   * `editId`. When no record has the id, reading `t.type` of `undefined` throws before
   * `editId = id` runs, so the state and the form stay as they were.
   */
  function EditTransaction(st: EditState, all: seq<Transaction>, id: int): (r: (EditState, Option<FormFields>))
    ensures r.1.None? <==> forall t :: t in all ==> t.id != id
    ensures r.1.None? ==> r.0 == st
    ensures r.1.Some? ==>
      && r.0 == EditState(Some(id))
      && exists i :: (0 <= i < |all| && all[i].id == id && r.1.value == FormOf(all[i])
                      && forall j :: 0 <= j < i ==> all[j].id != id)
  {
    match FindIndex(all, id)
    case None => (st, None)
    case Some(i) => (EditState(Some(id)), Some(FormOf(all[i])))
  }

  /** `deleteTransaction(id)`, with the answer to `confirm` as input: nothing unless confirmed. */
  function DeleteTransaction(id: int, confirmed: bool): (r: seq<Request>)
    ensures r == [] <==> !confirmed
    ensures confirmed ==> r[0] == Delete(id) && r[1..] == [Reload]
  {
    if confirmed then [Delete(id), Reload] else []
  }

  /** Clicking edit on a listed record and then submitting a valid form sends a PUT to that record's id. */
  lemma EditThenSubmitUpdatesThatRecord(st: EditState, all: seq<Transaction>, id: int, f: FormFields)
    requires exists t :: t in all && t.id == id
    requires f.kind != "" && !Blank(f.category) && f.amount > 0.0
    ensures Submit(EditTransaction(st, all, id).0, f) == (Initial, [Put(id, ReadForm(f)), Reload])
  {
  }

  /** Without an edit in progress a valid submit creates a record and stays out of edit mode. */
  lemma SubmitWithoutEditPosts(f: FormFields)
    requires f.kind != "" && !Blank(f.category) && f.amount > 0.0
    ensures Submit(Initial, f) == (Initial, [Post(ReadForm(f)), Reload])
  {
  }

  /**
   * A record the form can send back unchanged: valid, with a description, and with
   * category and description free of surrounding white space.
   */
  predicate Resubmittable(t: Transaction)
  {
    && t.kind != "" && t.amount > 0.0 && t.description.Some?
    && t.category != [] && Trimmed(t.category) && Trimmed(t.description.value)
  }

  /** Saving an unchanged form after `editTransaction` sends the record's own values back. */
  lemma EditedFormRoundTrip(t: Transaction)
    requires Resubmittable(t)
    ensures ReadForm(FormOf(t)) == Draft(t.kind, t.category, t.amount, t.date, t.description.value)
    ensures !Blank(FormOf(t).category)
  {
    TrimTrimmed(t.category);
    TrimTrimmed(t.description.value);
    TrimEmptyIffBlank(t.category);
  }

  /** Clicking edit on a listed record and saving the untouched form PUTs that record's own values. */
  lemma EditThenResubmit(st: EditState, all: seq<Transaction>, t: Transaction)
    requires t in all && Resubmittable(t)
    requires forall u :: u in all && u.id == t.id ==> u == t
    ensures EditTransaction(st, all, t.id) == (EditState(Some(t.id)), Some(FormOf(t)))
    ensures Submit(EditState(Some(t.id)), FormOf(t))
      == (Initial, [Put(t.id, Draft(t.kind, t.category, t.amount, t.date, t.description.value)), Reload])
  {
    var r := EditTransaction(st, all, t.id);
    var i :| 0 <= i < |all| && all[i].id == t.id && r.1.value == FormOf(all[i]);
    assert all[i] in all;
    EditedFormRoundTrip(t);
  }

  /** A record without a description comes back from the form with the description "". */
  lemma NullDescriptionBecomesEmpty(t: Transaction)
    requires t.description.None?
    ensures ReadForm(FormOf(t)).description == ""
  {
  }
}

=== FILE: filters.dfy ===
/**
 * `applyFilters` (frontend script only): keeps the records whose type passes the type
 * filter and whose category or description contains the search text, ignoring case.
 */
module Filters {
  import opened Wrappers
  import opened Strings
  import opened Transactions

  /** The type filter's "show everything" value. */
  const ALL: string := "all"

  /** `a` is `b` with some elements left out, the rest in their original order. */
  predicate IsSubsequence<T(==)>(a: seq<T>, b: seq<T>)
    decreases |b|
  {
    if a == [] then true
    else if b == [] then false
    else
      || (a[|a| - 1] == b[|b| - 1] && IsSubsequence(a[..|a| - 1], b[..|b| - 1]))
      || IsSubsequence(a, b[..|b| - 1])
  }

  /** The predicate passed to `allTransactions.filter`. */
  predicate Matches(t: Transaction, typeFilter: string, searchText: string)
  {
    var needle := Lower(searchText);
    && (typeFilter == ALL || t.kind == typeFilter)
    && (Contains(Lower(t.category), needle) || Contains(Lower(t.description.GetOr("")), needle))
  }

  /** The search ignores case: searching for the lower-cased text gives the same result. */
  lemma SearchIgnoresCase(t: Transaction, typeFilter: string, searchText: string)
    ensures Matches(t, typeFilter, searchText) <==> Matches(t, typeFilter, Lower(searchText))
  {
    LowerIdempotent(searchText);
  }

  /** `applyFilters`: the matching records, in list order. */
  function ApplyFilters(all: seq<Transaction>, typeFilter: string, searchText: string): (r: seq<Transaction>)
    ensures IsSubsequence(r, all)
    ensures forall t :: t in r <==> t in all && Matches(t, typeFilter, searchText)
  {
    if all == [] then []
    else
      var prefix := all[..|all| - 1];
      var t := all[|all| - 1];
      var p := ApplyFilters(prefix, typeFilter, searchText);
      assert all == prefix + [t];
      if Matches(t, typeFilter, searchText) then
        assert (p + [t])[..|p|] == p;
        p + [t]
      else p
  }

  /** `filter` keeps every copy of a matching record and no copy of any other. */
  lemma {:induction false} ApplyFiltersCounts(all: seq<Transaction>, typeFilter: string, searchText: string)
    ensures var r := ApplyFilters(all, typeFilter, searchText);
      forall t :: multiset(r)[t] == if Matches(t, typeFilter, searchText) then multiset(all)[t] else 0
  {
    if all != [] {
      var prefix := all[..|all| - 1];
      var x := all[|all| - 1];
      var p := ApplyFilters(prefix, typeFilter, searchText);
      ApplyFiltersCounts(prefix, typeFilter, searchText);
      assert all == prefix + [x];
      assert multiset(all) == multiset(prefix) + multiset{x};
      if Matches(x, typeFilter, searchText) {
        assert multiset(p + [x]) == multiset(p) + multiset{x};
      }
    }
  }

  /** With type "all" and an empty search box every record is shown. */
  lemma {:induction false} NoFilterKeepsEverything(all: seq<Transaction>)
    ensures ApplyFilters(all, ALL, "") == all
  {
    if all != [] {
      NoFilterKeepsEverything(all[..|all| - 1]);
      assert Lower("") == "";
      assert all == all[..|all| - 1] + [all[|all| - 1]];
    }
  }

  /** Filtering twice with the same settings changes nothing the second time. */
  lemma {:induction false} ApplyFiltersIdempotent(all: seq<Transaction>, typeFilter: string, searchText: string)
    ensures ApplyFilters(ApplyFilters(all, typeFilter, searchText), typeFilter, searchText)
      == ApplyFilters(all, typeFilter, searchText)
  {
    if all != [] {
      var p := ApplyFilters(all[..|all| - 1], typeFilter, searchText);
      ApplyFiltersIdempotent(all[..|all| - 1], typeFilter, searchText);
      var t := all[|all| - 1];
      if Matches(t, typeFilter, searchText) {
        assert (p + [t])[..|p|] == p;
      }
    }
  }

  lemma {:induction false} NotContainsLonger(h: string, n: string)
    requires |h| < |n|
    ensures !Contains(h, n)
    decreases |h|
  {
    if |h| > 0 {
      NotContainsLonger(h[1..], n);
    }
  }

  lemma SalaryLacksRent()
    ensures !Contains(Lower("Salary"), Lower("RENT"))
  {
    assert Lower("RENT") == "rent";
    assert Lower("Salary") == "salary";
    NotContainsLonger("ary", "rent");
    assert "lary"[..4][0] == 'l' && "lary"[1..] == "ary";
    assert !Contains("lary", "rent");
    assert "alary"[..4][0] == 'a' && "alary"[1..] == "lary";
    assert !Contains("alary", "rent");
    assert "salary"[..4][0] == 's' && "salary"[1..] == "alary";
  }

  lemma MonthlyLacksRent()
    ensures !Contains(Lower("monthly"), Lower("RENT"))
  {
    assert Lower("RENT") == "rent";
    assert Lower("monthly") == "monthly";
    NotContainsLonger("hly", "rent");
    assert "thly"[..4][0] == 't' && "thly"[1..] == "hly";
    assert !Contains("thly", "rent");
    assert "nthly"[..4][0] == 'n' && "nthly"[1..] == "thly";
    assert !Contains("nthly", "rent");
    assert "onthly"[..4][0] == 'o' && "onthly"[1..] == "nthly";
    assert !Contains("onthly", "rent");
    assert "monthly"[..4][0] == 'm' && "monthly"[1..] == "onthly";
  }

  lemma RentMatchesRent()
    ensures Contains(Lower("Rent"), Lower("RENT"))
  {
    assert Lower("RENT") == "rent" == Lower("Rent");
    assert StartsWith("rent", "rent");
  }

  /** Filtering on "income" and "RENT" keeps the income whose category mentions rent and drops the rent expense. */
  lemma IncomeRentExample()
    ensures var rentIn := Transaction(1, INCOME, "Rent", 9000.0, "2024-05-01", None);
      var rentOut := Transaction(2, EXPENSE, "Rent", 7000.0, "2024-05-02", None);
      var salary := Transaction(3, INCOME, "Salary", 50000.0, "2024-05-03", Some("monthly"));
      ApplyFilters([rentIn, rentOut, salary], INCOME, "RENT") == [rentIn]
  {
    var rentIn := Transaction(1, INCOME, "Rent", 9000.0, "2024-05-01", None);
    var rentOut := Transaction(2, EXPENSE, "Rent", 7000.0, "2024-05-02", None);
    var salary := Transaction(3, INCOME, "Salary", 50000.0, "2024-05-03", Some("monthly"));
    RentMatchesRent();
    SalaryLacksRent();
    MonthlyLacksRent();
    assert Matches(rentIn, INCOME, "RENT");
    assert !Matches(rentOut, INCOME, "RENT");
    assert !Matches(salary, INCOME, "RENT");
    var all := [rentIn, rentOut, salary];
    assert all[..1] == [rentIn] && all[..1][..0] == [];
    assert ApplyFilters(all[..1], INCOME, "RENT") == [rentIn];
    assert all[..2] == [rentIn, rentOut] && all[..2][..1] == [rentIn];
    assert ApplyFilters(all[..2], INCOME, "RENT") == [rentIn];
  }
}

=== FILE: grouping.dfy ===
/**
 * Grouping amounts by a string key, as the scripts do with a plain object:
 * `totals[key] = (totals[key] || 0) + t.amount`. A JavaScript object remembers the
 * order in which its (non-numeric) keys were first set; `Groups` keeps that order
 * beside the map, and `Object.keys`/`Object.values` read it back.
 */
module Grouping {
  import opened Transactions
  import opened Sorting

  /** An object used as an accumulator: its key/value pairs and its key insertion order. */
  datatype Groups = Groups(totals: map<string, real>, order: seq<string>) {

    /** The order lists each key of the map exactly once. */
    predicate Valid()
    {
      && (forall k :: k in totals ==> k in order)
      && (forall k :: k in order ==> k in totals)
      && NoDuplicates(order)
    }

    /** `Object.values(totals)`. */
    function Values(): (r: seq<real>)
      requires Valid()
      ensures |r| == |order|
      ensures forall i :: 0 <= i < |order| ==> r[i] == totals[order[i]]
    {
      ValuesAt(order, totals)
    }

    /** `Object.entries(totals)`. */
    function Entries(): (r: seq<(string, real)>)
      requires Valid()
      ensures |r| == |order|
      ensures forall i :: 0 <= i < |order| ==> r[i] == (order[i], totals[order[i]])
    {
      seq(|order|, i requires 0 <= i < |order| => (order[i], totals[order[i]]))
    }
  }

  /** The keys that occur in `s`. */
  function KeysOf(s: seq<Transaction>, key: Transaction -> string): set<string>
  {
    set t | t in s :: key(t)
  }

  /** The sum of the amounts of the records of `s` whose key is `k`. */
  function KeyTotal(s: seq<Transaction>, key: Transaction -> string, k: string): real
  {
    if s == [] then 0.0
    else KeyTotal(s[..|s| - 1], key, k) + (if key(s[|s| - 1]) == k then s[|s| - 1].amount else 0.0)
  }

  /** The position of the first record of `s` whose key is `k`, or `|s|` when there is none. */
  function FirstIndex(s: seq<Transaction>, key: Transaction -> string, k: string): nat
  {
    if s == [] then 0
    else if key(s[0]) == k then 0
    else 1 + FirstIndex(s[1..], key, k)
  }

  lemma {:induction false} FirstIndexOfPresent(s: seq<Transaction>, x: Transaction, key: Transaction -> string, k: string)
    requires k in KeysOf(s, key)
    ensures FirstIndex(s, key, k) < |s|
    ensures FirstIndex(s + [x], key, k) == FirstIndex(s, key, k)
  {
    var t :| t in s && key(t) == k;
    if key(s[0]) != k {
      assert t in s[1..];
      assert (s + [x])[1..] == s[1..] + [x];
      FirstIndexOfPresent(s[1..], x, key, k);
    }
  }

  lemma {:induction false} FirstIndexOfAbsent(s: seq<Transaction>, key: Transaction -> string, k: string)
    requires k !in KeysOf(s, key)
    ensures FirstIndex(s, key, k) == |s|
  {
    if s != [] {
      assert s[0] in s;
      assert KeysOf(s[1..], key) <= KeysOf(s, key);
      FirstIndexOfAbsent(s[1..], key, k);
    }
  }

  lemma FirstIndexOfNew(s: seq<Transaction>, x: Transaction, key: Transaction -> string)
    requires key(x) !in KeysOf(s, key)
    ensures FirstIndex(s + [x], key, key(x)) == |s|
  {
    assert KeysOf(s + [x], key) == KeysOf(s, key) + {key(x)};
    FirstIndexOfNewAux(s, x, key);
  }

  lemma {:induction false} FirstIndexOfNewAux(s: seq<Transaction>, x: Transaction, key: Transaction -> string)
    requires key(x) !in KeysOf(s, key)
    ensures FirstIndex(s + [x], key, key(x)) == |s|
  {
    if s != [] {
      assert s[0] in s;
      assert KeysOf(s[1..], key) <= KeysOf(s, key);
      assert (s + [x])[1..] == s[1..] + [x];
      FirstIndexOfNewAux(s[1..], x, key);
    }
  }

  lemma {:induction false} KeyTotalOfAbsent(s: seq<Transaction>, key: Transaction -> string, k: string)
    requires k !in KeysOf(s, key)
    ensures KeyTotal(s, key, k) == 0.0
  {
    if s != [] {
      assert s[|s| - 1] in s;
      assert KeysOf(s[..|s| - 1], key) <= KeysOf(s, key);
      KeyTotalOfAbsent(s[..|s| - 1], key, k);
    }
  }

  /** `totals[k] = (totals[k] || 0) + a`. */
  function Accumulate(g: Groups, k: string, a: real): (r: Groups)
    requires g.Valid()
    ensures r.Valid()
    ensures r.totals == g.totals[k := (if k in g.totals then g.totals[k] else 0.0) + a]
    ensures r.order == if k in g.totals then g.order else g.order + [k]
  {
    if k in g.totals then Groups(g.totals[k := g.totals[k] + a], g.order)
    else
      var r := Groups(g.totals[k := a], g.order + [k]);
      assert forall i :: 0 <= i < |g.order| ==> r.order[i] == g.order[i];
      r
  }

  /** The keys of `g` are exactly the keys occurring in `s`. */
  ghost predicate KeysMatch(g: Groups, s: seq<Transaction>, key: Transaction -> string)
  {
    g.totals.Keys == KeysOf(s, key)
  }

  /** Each key of `g` holds the total of that key's amounts in `s`. */
  ghost predicate TotalsMatch(g: Groups, s: seq<Transaction>, key: Transaction -> string)
  {
    forall k :: k in g.totals ==> g.totals[k] == KeyTotal(s, key, k)
  }

  /** The keys of `g` are listed in the order in which they first occur in `s`. */
  ghost predicate FirstSeenOrder(g: Groups, s: seq<Transaction>, key: Transaction -> string)
  {
    forall i, j :: 0 <= i < j < |g.order| ==> FirstIndex(s, key, g.order[i]) < FirstIndex(s, key, g.order[j])
  }

  /**
   * `g` is the object that accumulating the records of `s` by `key` produces: its keys
   * are exactly the keys occurring in `s`, each with the total of that key's amounts,
   * listed in the order in which they first occur in `s`.
   */
  ghost predicate Tallies(g: Groups, s: seq<Transaction>, key: Transaction -> string)
  {
    g.Valid() && KeysMatch(g, s, key) && TotalsMatch(g, s, key) && FirstSeenOrder(g, s, key)
  }

  lemma AccumulateKeys(g: Groups, s: seq<Transaction>, x: Transaction, key: Transaction -> string)
    requires g.Valid() && KeysMatch(g, s, key)
    ensures KeysMatch(Accumulate(g, key(x), x.amount), s + [x], key)
  {
    assert KeysOf(s + [x], key) == KeysOf(s, key) + {key(x)};
  }

  lemma AccumulateTotals(g: Groups, s: seq<Transaction>, x: Transaction, key: Transaction -> string)
    requires g.Valid() && KeysMatch(g, s, key) && TotalsMatch(g, s, key)
    ensures TotalsMatch(Accumulate(g, key(x), x.amount), s + [x], key)
  {
    var s' := s + [x];
    var r := Accumulate(g, key(x), x.amount);
    assert s'[..|s'| - 1] == s;
    forall k | k in r.totals ensures r.totals[k] == KeyTotal(s', key, k) {
      assert KeyTotal(s', key, k) == KeyTotal(s, key, k) + (if key(x) == k then x.amount else 0.0);
      if k != key(x) {
        assert k in g.totals;
      } else if k !in g.totals {
        KeyTotalOfAbsent(s, key, k);
      }
    }
  }

  lemma AccumulateOrder(g: Groups, s: seq<Transaction>, x: Transaction, key: Transaction -> string)
    requires g.Valid() && KeysMatch(g, s, key) && FirstSeenOrder(g, s, key)
    ensures FirstSeenOrder(Accumulate(g, key(x), x.amount), s + [x], key)
  {
    var s' := s + [x];
    var r := Accumulate(g, key(x), x.amount);
    if key(x) in g.totals {
      forall i | 0 <= i < |r.order| ensures FirstIndex(s', key, r.order[i]) == FirstIndex(s, key, r.order[i]) {
        assert r.order[i] in g.totals;
        FirstIndexOfPresent(s, x, key, r.order[i]);
      }
    } else {
      FirstIndexOfNew(s, x, key);
      forall i | 0 <= i < |g.order| ensures FirstIndex(s', key, r.order[i]) == FirstIndex(s, key, r.order[i]) < |s| {
        assert r.order[i] == g.order[i] && g.order[i] in g.totals;
        FirstIndexOfPresent(s, x, key, r.order[i]);
      }
    }
  }

  lemma AccumulateTallies(g: Groups, s: seq<Transaction>, x: Transaction, key: Transaction -> string)
    requires Tallies(g, s, key)
    ensures Tallies(Accumulate(g, key(x), x.amount), s + [x], key)
  {
    AccumulateKeys(g, s, x, key);
    AccumulateTotals(g, s, x, key);
    AccumulateOrder(g, s, x, key);
  }

  /** Groups the amounts of `s` by `key`, one pass front to back. */
  function GroupBy(s: seq<Transaction>, key: Transaction -> string): (r: Groups)
    ensures Tallies(r, s, key)
  {
    if s == [] then Groups(map[], [])
    else
      var p := s[..|s| - 1];
      var g := GroupBy(p, key);
      AccumulateTallies(g, p, s[|s| - 1], key);
      assert p + [s[|s| - 1]] == s;
      Accumulate(g, key(s[|s| - 1]), s[|s| - 1].amount)
  }

  /** The sum of the values of `m` at the keys of `order`. */
  function SumAt(order: seq<string>, m: map<string, real>): real
    requires forall k :: k in order ==> k in m
  {
    if order == [] then 0.0 else SumAt(order[..|order| - 1], m) + m[order[|order| - 1]]
  }

  lemma {:induction false} SumAtAgree(order: seq<string>, m: map<string, real>, m': map<string, real>)
    requires forall k :: k in order ==> k in m && k in m' && m[k] == m'[k]
    ensures SumAt(order, m) == SumAt(order, m')
  {
    if order != [] {
      SumAtAgree(order[..|order| - 1], m, m');
    }
  }

  lemma {:induction false} SumAtBump(order: seq<string>, m: map<string, real>, k: string, a: real)
    requires forall k' :: k' in order ==> k' in m
    requires NoDuplicates(order) && k in order
    ensures SumAt(order, m[k := m[k] + a]) == SumAt(order, m) + a
  {
    var p := order[..|order| - 1];
    var last := order[|order| - 1];
    assert NoDuplicates(p);
    if last == k {
      assert k !in p;
      SumAtAgree(p, m, m[k := m[k] + a]);
    } else {
      assert k in p by {
        var i :| 0 <= i < |order| && order[i] == k;
        assert i < |order| - 1 && p[i] == k;
      }
      SumAtBump(p, m, k, a);
    }
  }

  /** The sum of `Object.values(totals)`. */
  function SumValues(g: Groups): real
    requires g.Valid()
  {
    SumAt(g.order, g.totals)
  }

  lemma AccumulateSumOld(g: Groups, k: string, a: real)
    requires g.Valid() && k in g.totals
    ensures SumValues(Accumulate(g, k, a)) == SumValues(g) + a
  {
    SumAtBump(g.order, g.totals, k, a);
  }

  lemma AccumulateSumNew(g: Groups, k: string, a: real)
    requires g.Valid() && k !in g.totals
    ensures SumValues(Accumulate(g, k, a)) == SumValues(g) + a
  {
    var m' := g.totals[k := a];
    var order' := g.order + [k];
    assert order'[..|order'| - 1] == g.order;
    SumAtAgree(g.order, g.totals, m');
    assert SumAt(order', m') == SumAt(g.order, m') + a;
  }

  lemma AccumulateSum(g: Groups, k: string, a: real)
    requires g.Valid()
    ensures SumValues(Accumulate(g, k, a)) == SumValues(g) + a
  {
    if k in g.totals {
      AccumulateSumOld(g, k, a);
    } else {
      AccumulateSumNew(g, k, a);
    }
  }

  /** Grouping loses nothing: the group totals add up to the sum of all amounts. */
  lemma {:induction false} GroupByPreservesTotal(s: seq<Transaction>, key: Transaction -> string)
    ensures SumValues(GroupBy(s, key)) == Total(s)
  {
    if s != [] {
      var p := s[..|s| - 1];
      var x := s[|s| - 1];
      GroupByPreservesTotal(p, key);
      AccumulateSum(GroupBy(p, key), key(x), x.amount);
    }
  }

  /** The values of `m` at the keys of `order`, in that order. */
  function ValuesAt(order: seq<string>, m: map<string, real>): (r: seq<real>)
    requires forall k :: k in order ==> k in m
    ensures |r| == |order|
    ensures forall i :: 0 <= i < |order| ==> r[i] == m[order[i]]
  {
    if order == [] then [] else ValuesAt(order[..|order| - 1], m) + [m[order[|order| - 1]]]
  }

  /** The sum of a list of amounts. */
  function Sum(xs: seq<real>): real
  {
    if xs == [] then 0.0 else Sum(xs[..|xs| - 1]) + xs[|xs| - 1]
  }

  lemma {:induction false} SumAtIsSum(order: seq<string>, m: map<string, real>)
    requires forall k :: k in order ==> k in m
    ensures SumAt(order, m) == Sum(ValuesAt(order, m))
  {
    if order != [] {
      var xs := ValuesAt(order, m);
      SumAtIsSum(order[..|order| - 1], m);
      assert xs[..|xs| - 1] == ValuesAt(order[..|order| - 1], m);
    }
  }

  /** The values of a grouping add up to the sum of all amounts. */
  lemma GroupByValuesSum(s: seq<Transaction>, key: Transaction -> string)
    ensures Sum(GroupBy(s, key).Values()) == Total(s)
  {
    var g := GroupBy(s, key);
    GroupByPreservesTotal(s, key);
    SumAtIsSum(g.order, g.totals);
  }
}

=== FILE: insights.dfy ===
/**
 * `updateInsights` in both scripts: the top expense category and the two-point
 * spending trend. The root script compares the last two expenses in list order; the
 * frontend script first sorts the expenses by date (stably), and returns without
 * touching the panel when the list is empty.
 */
module Insights {
  import opened Wrappers
  import opened Strings
  import opened Sorting
  import opened Transactions
  import opened Grouping

  /** The category shown when no category has a positive expense total. */
  const NO_CATEGORY: string := "-"

  datatype Trend = Increasing | Decreasing

  /** What the insights panel shows; `trend` is `None` when the trend text is left as it was. */
  datatype Insight = Insight(topCategory: string, topAmount: real, trend: Option<Trend>)

  /**
   * The `for...in` scan with `if (total > maxAmount)` starting from `maxAmount = 0`:
   * the position of the first entry holding the strictly greatest value, if that value
   * is positive.
   */
  function TopIndex(g: seq<(string, real)>): (r: Option<nat>)
    ensures r.None? <==> forall j :: 0 <= j < |g| ==> g[j].1 <= 0.0
    ensures r.Some? ==>
      && r.value < |g|
      && g[r.value].1 > 0.0
      && (forall j :: 0 <= j < |g| ==> g[j].1 <= g[r.value].1)
      && (forall j :: 0 <= j < r.value ==> g[j].1 < g[r.value].1)
  {
    if g == [] then None
    else
      var p := TopIndex(g[..|g| - 1]);
      var best := if p.Some? then g[p.value].1 else 0.0;
      if g[|g| - 1].1 > best then Some(|g| - 1) else p
  }

  /** `topCategory`/`maxAmount` after the scan over `categoryTotals`. */
  function TopCategory(g: Groups): (r: (string, real))
    requires g.Valid()
    ensures r == (NO_CATEGORY, 0.0) <==> forall k :: k in g.totals ==> g.totals[k] <= 0.0
    ensures r != (NO_CATEGORY, 0.0) ==>
      && r.0 in g.totals && r.1 == g.totals[r.0] && r.1 > 0.0
      && forall k :: k in g.totals ==> g.totals[k] <= r.1
  {
    match TopIndex(g.Entries())
    case None =>
      TopIndexNone(g);
      (NO_CATEGORY, 0.0)
    case Some(i) =>
      var r := g.Entries()[i];
      assert r.0 in g.totals && r.1 > 0.0;
      assert forall k :: k in g.totals ==> g.totals[k] <= r.1 by {
        forall k | k in g.totals ensures g.totals[k] <= r.1 {
          var _ := TopIndexSome(g, i, k);
        }
      }
      r
  }

  /** The expense-only category totals the insights are computed from. */
  function ExpenseByCategory(s: seq<Transaction>): (r: Groups)
    ensures Tallies(r, Expenses(s), CategoryOf)
  {
    GroupBy(Expenses(s), CategoryOf)
  }

  /** The top category of the expenses of `s` with its total. */
  function TopExpenseCategory(s: seq<Transaction>): (r: (string, real))
    ensures var e := Expenses(s);
      || r == (NO_CATEGORY, 0.0)
      || (r.0 in KeysOf(e, CategoryOf) && r.1 == KeyTotal(e, CategoryOf, r.0) && r.1 > 0.0)
  {
    TopCategory(ExpenseByCategory(s))
  }

  /**
   * The top category is the sentinel `("-", 0)` exactly when no category has a positive
   * expense total; otherwise it is a category with the largest expense total, that total
   * is positive, and every category first seen earlier has a strictly smaller total
   * (ties go to the earlier category).
   */
  lemma TopExpenseCategoryIsFirstLargest(s: seq<Transaction>)
    ensures var e, r := Expenses(s), TopExpenseCategory(s);
      && (r == (NO_CATEGORY, 0.0) <==> forall c :: c in KeysOf(e, CategoryOf) ==> KeyTotal(e, CategoryOf, c) <= 0.0)
      && (r != (NO_CATEGORY, 0.0) ==>
            && r.0 in KeysOf(e, CategoryOf)
            && r.1 == KeyTotal(e, CategoryOf, r.0)
            && r.1 > 0.0
            && (forall c :: c in KeysOf(e, CategoryOf) ==> KeyTotal(e, CategoryOf, c) <= r.1)
            && (forall c :: c in KeysOf(e, CategoryOf) && FirstIndex(e, CategoryOf, c) < FirstIndex(e, CategoryOf, r.0)
                  ==> KeyTotal(e, CategoryOf, c) < r.1))
  {
    var e := Expenses(s);
    var g := ExpenseByCategory(s);
    var r := TopExpenseCategory(s);
    match TopIndex(g.Entries())
    case None =>
      TopIndexNone(g);
    case Some(i) =>
      assert r == (g.order[i], g.totals[g.order[i]]);
      forall c | c in KeysOf(e, CategoryOf)
        ensures KeyTotal(e, CategoryOf, c) <= r.1
        ensures FirstIndex(e, CategoryOf, c) < FirstIndex(e, CategoryOf, r.0) ==> KeyTotal(e, CategoryOf, c) < r.1
      {
        var j := TopIndexSome(g, i, c);
        assert i < j ==> FirstIndex(e, CategoryOf, r.0) < FirstIndex(e, CategoryOf, c);
      }
  }

  /** The position of key `c` in the key order of `g`. */
  lemma PositionOf(g: Groups, c: string) returns (j: nat)
    requires g.Valid() && c in g.totals
    ensures j < |g.order| && g.order[j] == c
  {
    assert c in g.order;
    j :| 0 <= j < |g.order| && g.order[j] == c;
  }

  /** When the scan finds nothing, no key of `g` holds a positive total. */
  lemma TopIndexNone(g: Groups)
    requires g.Valid() && TopIndex(g.Entries()).None?
    ensures forall c :: c in g.totals ==> g.totals[c] <= 0.0
  {
    forall c | c in g.totals ensures g.totals[c] <= 0.0 {
      var j := PositionOf(g, c);
      assert g.Entries()[j].1 == g.totals[c];
    }
  }

  /** When the scan picks position `i`, no key beats it and no earlier key ties it. */
  lemma TopIndexSome(g: Groups, i: nat, c: string) returns (j: nat)
    requires g.Valid() && TopIndex(g.Entries()) == Some(i) && c in g.totals
    ensures j < |g.order| && g.order[j] == c
    ensures g.totals[c] <= g.Entries()[i].1
    ensures j < i ==> g.totals[c] < g.Entries()[i].1
  {
    j := PositionOf(g, c);
    assert g.Entries()[j].1 == g.totals[c];
  }

  /** The two-point comparison: present once there are two entries, Increasing iff the last is strictly larger. */
  function LastTwoTrend(e: seq<Transaction>): (r: Option<Trend>)
    ensures r.Some? <==> |e| >= 2
    ensures r == Some(Increasing) <==> |e| >= 2 && e[|e| - 1].amount > e[|e| - 2].amount
  {
    if |e| < 2 then None
    else if e[|e| - 1].amount > e[|e| - 2].amount then Some(Increasing)
    else Some(Decreasing)
  }

  /** The root script's trend: the last two expenses in list order. */
  function ListOrderTrend(s: seq<Transaction>): (r: Option<Trend>)
    ensures r.Some? <==> |Expenses(s)| >= 2
  {
    LastTwoTrend(Expenses(s))
  }

  /** The frontend script's trend: the last two expenses after a stable sort by date. */
  function DateOrderTrend(s: seq<Transaction>): (r: Option<Trend>)
    ensures r.Some? <==> |Expenses(s)| >= 2
  {
    LastTwoTrend(SortBy(Expenses(s), DateOf))
  }

  lemma {:induction false} NoExpensesIn(s: seq<Transaction>)
    requires forall t :: t in s ==> t.kind != EXPENSE
    ensures Expenses(s) == []
  {
    if s != [] {
      assert s[|s| - 1] in s;
      NoExpensesIn(s[..|s| - 1]);
    }
  }

  /**
   * The list-order trend, stated on the list itself: if `s[i]` and `s[j]` are expenses
   * and no other expense follows `s[i]`, the trend compares `s[j]` with `s[i]`.
   */
  lemma ListOrderTrendComparesLastTwo(s: seq<Transaction>, i: nat, j: nat)
    requires i < j < |s|
    requires s[i].kind == EXPENSE && s[j].kind == EXPENSE
    requires forall k :: i < k < |s| && k != j ==> s[k].kind != EXPENSE
    ensures ListOrderTrend(s) == Some(if s[j].amount > s[i].amount then Increasing else Decreasing)
  {
    var p := Expenses(s[..i]);
    ExpensesOfPrefixStep(s, i);
    assert Expenses(s[..i + 1]) == p + [s[i]];
    NoExpensesBetween(s, i + 1, j);
    ExpensesOfPrefixStep(s, j);
    assert Expenses(s[..j + 1]) == p + [s[i]] + [s[j]];
    NoExpensesAfter(s, j + 1);
    var e := Expenses(s);
    assert e == Expenses(s[..j + 1]);
    assert e == p + [s[i]] + [s[j]];
    LastTwoTrendOfPair(p, s[i], s[j]);
    assert ListOrderTrend(s) == LastTwoTrend(e);
  }

  lemma LastTwoTrendOfPair(p: seq<Transaction>, a: Transaction, b: Transaction)
    ensures LastTwoTrend(p + [a] + [b]) == Some(if b.amount > a.amount then Increasing else Decreasing)
  {
    var e := p + [a] + [b];
    assert e[|e| - 1] == b && e[|e| - 2] == a;
  }

  /** Extending a prefix of `s` by one record adds that record to its expenses exactly when it is one. */
  lemma ExpensesOfPrefixStep(s: seq<Transaction>, n: nat)
    requires n < |s|
    ensures Expenses(s[..n + 1]) == Expenses(s[..n]) + (if s[n].kind == EXPENSE then [s[n]] else [])
  {
    assert s[..n + 1][..n] == s[..n];
  }

  /** No record from position `n` on is an expense, so the expenses of `s` are those of `s[..n]`. */
  lemma NoExpensesAfter(s: seq<Transaction>, n: nat)
    requires n <= |s|
    requires forall k :: n <= k < |s| ==> s[k].kind != EXPENSE
    ensures Expenses(s) == Expenses(s[..n])
  {
    NoExpensesBetween(s, n, |s|);
    assert s[..|s|] == s;
  }

  /** Records `n..m-1` of `s` are not expenses, so the expenses of `s[..m]` are those of `s[..n]`. */
  lemma {:induction false} NoExpensesBetween(s: seq<Transaction>, n: nat, m: nat)
    requires n <= m <= |s|
    requires forall k :: n <= k < m ==> s[k].kind != EXPENSE
    ensures Expenses(s[..m]) == Expenses(s[..n])
    decreases m - n
  {
    if n < m {
      ExpensesOfPrefixStep(s, m - 1);
      NoExpensesBetween(s, n, m - 1);
    }
  }

  /** When the expenses are already in date order, the two scripts report the same trend. */
  lemma DateOrderTrendOfDateOrderedList(s: seq<Transaction>)
    requires SortedBy(Expenses(s), DateOf)
    ensures DateOrderTrend(s) == ListOrderTrend(s)
  {
    SortBySortedIsIdentity(Expenses(s), DateOf);
  }

  /**
   * The date-order trend, stated on the expense list `e` in list order: if `e[b]` comes
   * last in (date, position) order and `e[a]` last among the others, the frontend's
   * trend compares `e[b]` with `e[a]`.
   */
  lemma DateOrderTrendComparesLastTwo(s: seq<Transaction>, a: nat, b: nat)
    requires a < |Expenses(s)| && a != b
    requires LastByKey(Expenses(s), DateOf, b)
    requires LastByKey(Remove(Expenses(s), b), DateOf, if a < b then a else a - 1)
    ensures var e := Expenses(s);
      DateOrderTrend(s) == Some(if e[b].amount > e[a].amount then Increasing else Decreasing)
  {
    var e := Expenses(s);
    var r1 := Remove(e, b);
    var a' := if a < b then a else a - 1;
    assert r1[a'] == e[a];
    SortByLast(e, DateOf, b);
    SortByLast(r1, DateOf, a');
    var rest := SortBy(Remove(r1, a'), DateOf);
    assert SortBy(e, DateOf) == rest + [e[a]] + [e[b]];
    LastTwoTrendOfPair(rest, e[a], e[b]);
  }

  /** The root script's `updateInsights`. */
  function RootInsights(s: seq<Transaction>): (r: Insight)
    ensures (r.topCategory, r.topAmount) == TopExpenseCategory(s)
    ensures r.trend == ListOrderTrend(s)
    ensures r.trend.Some? <==> |Expenses(s)| >= 2
  {
    var (c, a) := TopExpenseCategory(s);
    Insight(c, a, ListOrderTrend(s))
  }

  /** The frontend script's `updateInsights`: nothing at all for an empty list. */
  function FrontendInsights(s: seq<Transaction>): (r: Option<Insight>)
    ensures r.None? <==> |s| == 0
    ensures r.Some? ==>
      && r.value.topCategory == RootInsights(s).topCategory
      && r.value.topAmount == RootInsights(s).topAmount
      && (r.value.trend.Some? <==> |Expenses(s)| >= 2)
    ensures r.Some? ==> r.value.trend == DateOrderTrend(s)
    ensures r.Some? && SortedBy(Expenses(s), DateOf) ==> r.value == RootInsights(s)
  {
    if |s| == 0 then None
    else
      assert SortedBy(Expenses(s), DateOf) ==> DateOrderTrend(s) == ListOrderTrend(s) by {
        if SortedBy(Expenses(s), DateOf) {
          DateOrderTrendOfDateOrderedList(s);
        }
      }
      var (c, a) := TopExpenseCategory(s);
      Some(Insight(c, a, DateOrderTrend(s)))
  }

  /** With no expense records (an empty or income-only list), the root script shows `("-", 0)` and no trend. */
  lemma RootInsightsWithoutExpenses(s: seq<Transaction>)
    requires forall t :: t in s ==> t.kind != EXPENSE
    ensures RootInsights(s) == Insight(NO_CATEGORY, 0.0, None)
  {
    NoExpensesIn(s);
    assert ExpenseByCategory(s) == Groups(map[], []);
  }

  /** An expense list is its own expense list. */
  lemma {:induction false} ExpensesOfExpenses(e: seq<Transaction>)
    requires forall t :: t in e ==> t.kind == EXPENSE
    ensures Expenses(e) == e
  {
    if e != [] {
      assert e[|e| - 1] in e;
      assert e == e[..|e| - 1] + [e[|e| - 1]];
      ExpensesOfExpenses(e[..|e| - 1]);
    }
  }

  /** Two expenses already in date order: both scripts compare the second with the first. */
  lemma DatedPairTrend(a: Transaction, b: Transaction)
    requires a.kind == EXPENSE && b.kind == EXPENSE && LexLe(a.date, b.date)
    ensures ListOrderTrend([a, b]) == Some(if b.amount > a.amount then Increasing else Decreasing)
    ensures DateOrderTrend([a, b]) == ListOrderTrend([a, b])
  {
    ExpensesOfExpenses([a, b]);
    assert SortedBy([a, b], DateOf);
    DateOrderTrendOfDateOrderedList([a, b]);
  }

  lemma MayFirstBeforeMaySecond()
    ensures LexLe("2024-05-01", "2024-05-02")
  {
  }

  /** Two expenses of 100 then 150 (in list and in date order) read as Increasing in both scripts. */
  lemma TrendOfRisingPair()
    ensures var a := Transaction(1, EXPENSE, "Food", 100.0, "2024-05-01", None);
      var b := Transaction(2, EXPENSE, "Rent", 150.0, "2024-05-02", None);
      ListOrderTrend([a, b]) == Some(Increasing) && DateOrderTrend([a, b]) == Some(Increasing)
  {
    var a := Transaction(1, EXPENSE, "Food", 100.0, "2024-05-01", None);
    var b := Transaction(2, EXPENSE, "Rent", 150.0, "2024-05-02", None);
    MayFirstBeforeMaySecond();
    DatedPairTrend(a, b);
  }

  /** The same two amounts the other way round, 150 then 100, read as Decreasing in both scripts. */
  lemma TrendOfFallingPair()
    ensures var a := Transaction(1, EXPENSE, "Rent", 150.0, "2024-05-01", None);
      var b := Transaction(2, EXPENSE, "Food", 100.0, "2024-05-02", None);
      ListOrderTrend([a, b]) == Some(Decreasing) && DateOrderTrend([a, b]) == Some(Decreasing)
  {
    var a := Transaction(1, EXPENSE, "Rent", 150.0, "2024-05-01", None);
    var b := Transaction(2, EXPENSE, "Food", 100.0, "2024-05-02", None);
    MayFirstBeforeMaySecond();
    DatedPairTrend(a, b);
  }

  /**
   * The scripts can disagree: a 150 expense dated the 10th listed before a 100 expense
   * dated the 1st is Decreasing in list order but Increasing in date order.
   */
  lemma TrendScriptsDisagree()
    ensures var late := Transaction(1, EXPENSE, "Rent", 150.0, "2024-05-10", None);
      var early := Transaction(2, EXPENSE, "Food", 100.0, "2024-05-01", None);
      && ListOrderTrend([late, early]) == Some(Decreasing)
      && DateOrderTrend([late, early]) == Some(Increasing)
  {
    var late := Transaction(1, EXPENSE, "Rent", 150.0, "2024-05-10", None);
    var early := Transaction(2, EXPENSE, "Food", 100.0, "2024-05-01", None);
    MayTenthNotBeforeMayFirst();
    SwappedPairTrend(late, early);
  }

  /** Two expenses listed against date order: the list-order trend compares them as listed, the date-order one swapped. */
  lemma SwappedPairTrend(a: Transaction, b: Transaction)
    requires a.kind == EXPENSE && b.kind == EXPENSE && !LexLe(a.date, b.date)
    ensures ListOrderTrend([a, b]) == Some(if b.amount > a.amount then Increasing else Decreasing)
    ensures DateOrderTrend([a, b]) == Some(if a.amount > b.amount then Increasing else Decreasing)
  {
    ExpensesOfExpenses([a, b]);
    assert SortBy([b], DateOf) == [b];
    assert SortBy([a, b], DateOf) == Insert(a, [b], DateOf);
    assert Insert(a, [b], DateOf) == [b] + Insert(a, [], DateOf);
  }

  lemma MayTenthNotBeforeMayFirst()
    ensures !LexLe("2024-05-10", "2024-05-01")
  {
  }
}

=== FILE: sorting.dfy ===
/**
 * A stable sort by a string key, the behaviour of JavaScript's `Array.prototype.sort`
 * with a consistent comparator: the result is in ascending key order, is a permutation
 * of the input, and elements with equal keys keep their input order.
 */
module Sorting {
  import opened Strings

  /** Every element's key is at most the next one's. */
  predicate SortedBy<T>(s: seq<T>, key: T -> string)
  {
    forall i :: 0 < i < |s| ==> LexLe(key(s[i - 1]), key(s[i]))
  }

  /** The elements of `s` whose key is `k`, in their order in `s`. */
  function WithKey<T>(s: seq<T>, key: T -> string, k: string): (r: seq<T>)
    ensures |r| <= |s|
  {
    if s == [] then []
    else (if key(s[0]) == k then [s[0]] else []) + WithKey(s[1..], key, k)
  }

  /** Puts `x` into the sorted `s` in front of the first element whose key is not below `x`'s. */
  function Insert<T>(x: T, s: seq<T>, key: T -> string): (r: seq<T>)
    requires SortedBy(s, key)
    ensures SortedBy(r, key)
    ensures multiset(r) == multiset(s) + multiset{x}
    ensures r[0] == x || (s != [] && r[0] == s[0])
  {
    if s == [] || LexLe(key(x), key(s[0])) then [x] + s
    else
      LexLeTotal(key(x), key(s[0]));
      var rest := Insert(x, s[1..], key);
      assert s == [s[0]] + s[1..];
      [s[0]] + rest
  }

  /** Insertion sort from the back, so that of two equal keys the earlier element ends up first. */
  function SortBy<T>(s: seq<T>, key: T -> string): (r: seq<T>)
    ensures SortedBy(r, key)
    ensures multiset(r) == multiset(s)
    ensures |r| == |s|
  {
    if s == [] then []
    else
      assert s == [s[0]] + s[1..];
      Insert(s[0], SortBy(s[1..], key), key)
  }

  lemma WithKeyCons<T>(x: T, s: seq<T>, key: T -> string, k: string)
    ensures WithKey([x] + s, key, k) == (if key(x) == k then [x] else []) + WithKey(s, key, k)
  {
    assert ([x] + s)[1..] == s;
  }

  lemma {:induction false} InsertStable<T>(x: T, s: seq<T>, key: T -> string, k: string)
    requires SortedBy(s, key)
    ensures WithKey(Insert(x, s, key), key, k) == (if key(x) == k then [x] else []) + WithKey(s, key, k)
    decreases |s|
  {
    if s == [] || LexLe(key(x), key(s[0])) {
      assert Insert(x, s, key) == [x] + s;
      WithKeyCons(x, s, key, k);
    } else {
      var rest := Insert(x, s[1..], key);
      assert Insert(x, s, key) == [s[0]] + rest;
      WithKeyCons(s[0], rest, key, k);
      SortedTail(s, key);
      InsertStable(x, s[1..], key, k);
      WithKeyCons(s[0], s[1..], key, k);
      assert [s[0]] + s[1..] == s;
      if key(x) == k {
        LexLeReflexive(k);
        assert key(s[0]) != k;
      }
    }
  }

  /** Stability: for every key, the elements with that key appear in the same order before and after sorting. */
  lemma {:induction false} SortByStable<T>(s: seq<T>, key: T -> string, k: string)
    ensures WithKey(SortBy(s, key), key, k) == WithKey(s, key, k)
  {
    if s != [] {
      SortByStable(s[1..], key, k);
      InsertStable(s[0], SortBy(s[1..], key), key, k);
    }
  }

  lemma SortedTail<T>(s: seq<T>, key: T -> string)
    requires s != [] && SortedBy(s, key)
    ensures SortedBy(s[1..], key)
  {
    forall i | 0 < i < |s[1..]|
      ensures LexLe(key(s[1..][i - 1]), key(s[1..][i]))
    {
      assert s[1..][i - 1] == s[i] && s[1..][i] == s[i + 1];
    }
  }

  /** Sorting a sequence that is already in key order returns it unchanged. */
  lemma {:induction false} SortBySortedIsIdentity<T>(s: seq<T>, key: T -> string)
    requires SortedBy(s, key)
    ensures SortBy(s, key) == s
  {
    if s != [] {
      SortedTail(s, key);
      SortBySortedIsIdentity(s[1..], key);
      assert SortBy(s, key) == Insert(s[0], s[1..], key);
      assert s[1..] == [] || LexLe(key(s[0]), key(s[1..][0]));
      assert Insert(s[0], s[1..], key) == [s[0]] + s[1..];
      assert s == [s[0]] + s[1..];
    }
  }

  /** No element occurs twice. */
  predicate NoDuplicates<T(==)>(s: seq<T>)
  {
    forall i, j :: 0 <= i < j < |s| ==> s[i] != s[j]
  }

  lemma FirstNotInRest<T>(s: seq<T>)
    requires s != [] && NoDuplicates(s)
    ensures s[0] !in s[1..]
  {
    forall k | 0 <= k < |s[1..]| ensures s[1..][k] != s[0] {
      assert s[1..][k] == s[k + 1];
    }
  }

  lemma PrependKeepsNoDuplicates<T>(x: T, s: seq<T>)
    requires NoDuplicates(s) && x !in s
    ensures NoDuplicates([x] + s)
  {
    var r := [x] + s;
    forall i, j | 0 <= i < j < |r| ensures r[i] != r[j] {
      assert r[j] == s[j - 1];
      if i > 0 {
        assert r[i] == s[i - 1];
      }
    }
  }

  lemma TailKeepsNoDuplicates<T>(s: seq<T>)
    requires s != [] && NoDuplicates(s)
    ensures NoDuplicates(s[1..])
  {
    forall i, j | 0 <= i < j < |s[1..]| ensures s[1..][i] != s[1..][j] {
      assert s[1..][i] == s[i + 1] && s[1..][j] == s[j + 1];
    }
  }

  lemma {:induction false} InsertKeepsNoDuplicates<T>(x: T, s: seq<T>, key: T -> string)
    requires SortedBy(s, key) && NoDuplicates(s) && x !in s
    ensures NoDuplicates(Insert(x, s, key))
    decreases |s|
  {
    if s == [] || LexLe(key(x), key(s[0])) {
      assert Insert(x, s, key) == [x] + s;
      PrependKeepsNoDuplicates(x, s);
    } else {
      var rest := Insert(x, s[1..], key);
      assert s == [s[0]] + s[1..];
      SortedTail(s, key);
      TailKeepsNoDuplicates(s);
      InsertKeepsNoDuplicates(x, s[1..], key);
      assert s[0] !in rest by {
        FirstNotInRest(s);
        assert multiset(rest)[s[0]] == multiset(s[1..])[s[0]] + multiset{x}[s[0]];
      }
      assert Insert(x, s, key) == [s[0]] + rest;
      PrependKeepsNoDuplicates(s[0], rest);
    }
  }

  /** Sorting a sequence without duplicates yields one without duplicates. */
  lemma {:induction false} SortByKeepsNoDuplicates<T>(s: seq<T>, key: T -> string)
    requires NoDuplicates(s)
    ensures NoDuplicates(SortBy(s, key))
  {
    if s != [] {
      TailKeepsNoDuplicates(s);
      SortByKeepsNoDuplicates(s[1..], key);
      assert s[0] !in SortBy(s[1..], key) by {
        FirstNotInRest(s);
        assert multiset(SortBy(s[1..], key))[s[0]] == multiset(s[1..])[s[0]];
      }
      InsertKeepsNoDuplicates(s[0], SortBy(s[1..], key), key);
    }
  }

  /** Sortedness of neighbours extends to every pair, by transitivity. */
  lemma {:induction false} SortedByPairwise<T>(s: seq<T>, key: T -> string, i: nat, j: nat)
    requires SortedBy(s, key) && i <= j < |s|
    ensures LexLe(key(s[i]), key(s[j]))
    decreases j - i
  {
    if i == j {
      LexLeReflexive(key(s[i]));
    } else {
      SortedByPairwise(s, key, i, j - 1);
      LexLeTransitive(key(s[i]), key(s[j - 1]), key(s[j]));
    }
  }

  /** `s` without its element at position `b`. */
  function Remove<T>(s: seq<T>, b: nat): (r: seq<T>)
    requires b < |s|
    ensures |r| == |s| - 1
    ensures forall k :: 0 <= k < |r| ==> r[k] == if k < b then s[k] else s[k + 1]
  {
    s[..b] + s[b + 1..]
  }

  /**
   * `s[b]` comes last in (key, position) order: no other element has a greater key,
   * and none after it has the same key.
   */
  predicate LastByKey<T>(s: seq<T>, key: T -> string, b: nat)
  {
    && b < |s|
    && forall c :: 0 <= c < |s| && c != b ==>
         LexLe(key(s[c]), key(s[b])) && (b < c ==> key(s[c]) != key(s[b]))
  }

  lemma SortedPrefix<T>(s: seq<T>, y: T, key: T -> string)
    requires SortedBy(s + [y], key)
    ensures SortedBy(s, key)
  {
    forall i | 0 < i < |s| ensures LexLe(key(s[i - 1]), key(s[i])) {
      assert (s + [y])[i - 1] == s[i - 1] && (s + [y])[i] == s[i];
    }
  }

  /** Inserting an element whose key is at most that of the last element leaves the last element last. */
  lemma {:induction false} InsertBeforeLast<T>(x: T, s: seq<T>, y: T, key: T -> string)
    requires SortedBy(s + [y], key) && LexLe(key(x), key(y))
    ensures SortedBy(s, key) && Insert(x, s + [y], key) == Insert(x, s, key) + [y]
    decreases |s|
  {
    SortedPrefix(s, y, key);
    var t := s + [y];
    if s == [] {
      assert t == [y];
    } else if LexLe(key(x), key(s[0])) {
      assert t[0] == s[0];
      assert Insert(x, t, key) == [x] + t;
    } else {
      assert t[0] == s[0] && t[1..] == s[1..] + [y];
      SortedTail(t, key);
      InsertBeforeLast(x, s[1..], y, key);
      assert Insert(x, t, key) == [s[0]] + Insert(x, s[1..] + [y], key);
    }
  }

  /** Inserting an element whose key is strictly above every key puts it at the end. */
  lemma {:induction false} InsertAtEnd<T>(x: T, s: seq<T>, key: T -> string)
    requires SortedBy(s, key)
    requires forall y :: y in s ==> LexLe(key(y), key(x)) && key(y) != key(x)
    ensures Insert(x, s, key) == s + [x]
    decreases |s|
  {
    if s != [] {
      var head, tail := s[0], s[1..];
      assert head in s;
      NotLeOfBelow(key(x), key(head));
      SortedTail(s, key);
      assert forall y :: y in tail ==> y in s;
      InsertAtEnd(x, tail, key);
      assert s == [head] + tail;
      assert Insert(x, s, key) == [head] + (tail + [x]);
    }
  }

  /** A key strictly above another is not at or below it. */
  lemma NotLeOfBelow(a: string, b: string)
    requires LexLe(b, a) && b != a
    ensures !LexLe(a, b)
  {
    if LexLe(a, b) {
      LexLeAntisymmetric(a, b);
    }
  }

  /** All later elements have strictly smaller keys than the first, so sorting puts the first at the end. */
  lemma SortByFirstLast<T>(s: seq<T>, key: T -> string)
    requires LastByKey(s, key, 0)
    ensures SortBy(s, key) == SortBy(s[1..], key) + [s[0]]
  {
    var t := s[1..];
    var st := SortBy(t, key);
    forall y | y in st ensures LexLe(key(y), key(s[0])) && key(y) != key(s[0]) {
      assert multiset(st)[y] == multiset(t)[y];
      var c :| 0 <= c < |t| && t[c] == y;
      assert s[c + 1] == y;
    }
    InsertAtEnd(s[0], st, key);
  }

  lemma LastByKeyTail<T>(s: seq<T>, key: T -> string, b: nat)
    requires LastByKey(s, key, b) && b > 0
    ensures LastByKey(s[1..], key, b - 1)
  {
    var t := s[1..];
    forall c | 0 <= c < |t| && c != b - 1
      ensures LexLe(key(t[c]), key(t[b - 1])) && (b - 1 < c ==> key(t[c]) != key(t[b - 1]))
    {
      assert t[c] == s[c + 1] && t[b - 1] == s[b];
    }
  }

  /** Sorting puts the element that is last in (key, position) order at the end, after the sorted rest. */
  lemma {:induction false} SortByLast<T>(s: seq<T>, key: T -> string, b: nat)
    requires LastByKey(s, key, b)
    ensures SortBy(s, key) == SortBy(Remove(s, b), key) + [s[b]]
    decreases |s|
  {
    if b == 0 {
      assert Remove(s, 0) == s[1..];
      SortByFirstLast(s, key);
    } else {
      var t := s[1..];
      LastByKeyTail(s, key, b);
      SortByLast(t, key, b - 1);
      var rest := Remove(t, b - 1);
      var sr := SortBy(rest, key);
      assert SortBy(t, key) == sr + [s[b]];
      assert Remove(s, b) == [s[0]] + rest;
      assert ([s[0]] + rest)[1..] == rest;
      assert SortBy(Remove(s, b), key) == Insert(s[0], sr, key);
      assert SortBy(s, key) == Insert(s[0], sr + [s[b]], key);
      InsertBeforeLast(s[0], sr, s[b], key);
    }
  }
}

=== FILE: strings.dfy ===
/** The JavaScript string operations the front-end scripts rely on, over `seq<char>`. */
module Strings {

  /** JavaScript's `a <= b` on strings: character by character, a proper prefix sorting first. */
  predicate LexLe(a: string, b: string)
    decreases |a|
  {
    |a| == 0 || (|b| > 0 && (a[0] < b[0] || (a[0] == b[0] && LexLe(a[1..], b[1..]))))
  }

  /** JavaScript's `a < b` on strings. */
  predicate LexLt(a: string, b: string)
  {
    LexLe(a, b) && a != b
  }

  lemma LexLeReflexive(a: string)
    ensures LexLe(a, a)
    decreases |a|
  {
    if |a| > 0 {
      LexLeReflexive(a[1..]);
    }
  }

  lemma LexLeTotal(a: string, b: string)
    ensures LexLe(a, b) || LexLe(b, a)
    decreases |a|
  {
    if |a| > 0 && |b| > 0 && a[0] == b[0] {
      LexLeTotal(a[1..], b[1..]);
    }
  }

  lemma LexLeAntisymmetric(a: string, b: string)
    requires LexLe(a, b) && LexLe(b, a)
    ensures a == b
    decreases |a|
  {
    if |a| > 0 {
      LexLeAntisymmetric(a[1..], b[1..]);
      assert a == [a[0]] + a[1..];
      assert b == [b[0]] + b[1..];
    }
  }

  lemma LexLeTransitive(a: string, b: string, c: string)
    requires LexLe(a, b) && LexLe(b, c)
    ensures LexLe(a, c)
    decreases |a|
  {
    if |a| > 0 && a[0] == b[0] && b[0] == c[0] {
      LexLeTransitive(a[1..], b[1..], c[1..]);
    }
  }

  /** JavaScript's `s.startsWith(p)`. */
  predicate StartsWith(s: string, p: string)
  {
    |p| <= |s| && s[..|p|] == p
  }

  /** JavaScript's `s.substring(0, n)` (equally `s.slice(0, n)`) for `n >= 0`: at most the first `n` characters. */
  function Take(s: string, n: nat): (r: string)
    ensures |r| == if |s| < n then |s| else n
    ensures StartsWith(s, r)
  {
    if |s| <= n then s else s[..n]
  }

  /** JavaScript's `h.includes(n)`: `n` occurs in `h` at some position. */
  predicate Contains(h: string, n: string)
    decreases |h|
  {
    StartsWith(h, n) || (|h| > 0 && Contains(h[1..], n))
  }

  /** `Contains` is the same as finding `n` at some offset of `h`. */
  lemma {:induction false} ContainsAt(h: string, n: string, i: nat)
    requires i + |n| <= |h| && h[i..i + |n|] == n
    ensures Contains(h, n)
    decreases i
  {
    if i > 0 {
      assert h[1..][i - 1..i - 1 + |n|] == h[i..i + |n|];
      ContainsAt(h[1..], n, i - 1);
    }
  }

  /** Conversely, whenever `Contains` holds, `n` occurs in `h` at the offset returned. */
  lemma {:induction false} ContainsOccurs(h: string, n: string) returns (i: nat)
    requires Contains(h, n)
    ensures i + |n| <= |h| && h[i..i + |n|] == n
    decreases |h|
  {
    if StartsWith(h, n) {
      i := 0;
    } else {
      var j := ContainsOccurs(h[1..], n);
      assert h[1..][j..j + |n|] == h[j + 1..j + 1 + |n|];
      i := j + 1;
    }
  }

  /** A lower-case conversion of one character: the Basic Latin capitals `A`..`Z`. */
  function LowerChar(c: char): (r: char)
    ensures 'A' <= c <= 'Z' ==> 'a' <= r <= 'z' && r as int - c as int == 32
    ensures !('A' <= c <= 'Z') ==> r == c
  {
    if 'A' <= c <= 'Z' then (c as int + 32) as char else c
  }

  /** JavaScript's `s.toLowerCase()`, restricted to Basic Latin letters. */
  function Lower(s: string): (r: string)
    ensures |r| == |s|
    ensures forall i :: 0 <= i < |s| ==> r[i] == LowerChar(s[i])
  {
    seq(|s|, i requires 0 <= i < |s| => LowerChar(s[i]))
  }

  /** Lower-casing twice is lower-casing once. */
  lemma LowerIdempotent(s: string)
    ensures Lower(Lower(s)) == Lower(s)
  {
    forall i | 0 <= i < |s| ensures Lower(Lower(s))[i] == Lower(s)[i] {
      assert LowerChar(LowerChar(s[i])) == LowerChar(s[i]);
    }
  }

  /** The characters JavaScript's `trim()` removes: WhiteSpace and LineTerminator code points. */
  const SPACES: set<char> := {
    '\U{9}', '\U{A}', '\U{B}', '\U{C}', '\U{D}', '\U{20}', '\U{A0}', '\U{1680}',
    '\U{2000}', '\U{2001}', '\U{2002}', '\U{2003}', '\U{2004}', '\U{2005}',
    '\U{2006}', '\U{2007}', '\U{2008}', '\U{2009}', '\U{200A}',
    '\U{2028}', '\U{2029}', '\U{202F}', '\U{205F}', '\U{3000}', '\U{FEFF}'
  }

  predicate IsSpace(c: char)
  {
    c in SPACES
  }

  /** The position of the first non-space character of `s` at or after `i`, or `|s|` if there is none. */
  function SkipSpaces(s: string, i: nat): (r: nat)
    requires i <= |s|
    ensures i <= r <= |s|
    ensures forall k :: i <= k < r ==> IsSpace(s[k])
    ensures r == |s| || !IsSpace(s[r])
    decreases |s| - i
  {
    if i < |s| && IsSpace(s[i]) then SkipSpaces(s, i + 1) else i
  }

  /** The end of `s[lo..j]` once the white space in front of `j` is dropped. */
  function SkipSpacesBack(s: string, lo: nat, j: nat): (r: nat)
    requires lo <= j <= |s|
    ensures lo <= r <= j
    ensures forall k :: r <= k < j ==> IsSpace(s[k])
    ensures r == lo || !IsSpace(s[r - 1])
  {
    if lo < j && IsSpace(s[j - 1]) then SkipSpacesBack(s, lo, j - 1) else j
  }

  /** JavaScript's `s.trim()`: the infix of `s` left after dropping white space at both ends. */
  function Trim(s: string): (r: string)
    ensures var i := SkipSpaces(s, 0);
      && i + |r| <= |s| && r == s[i..i + |r|]
      && (forall k :: 0 <= k < i ==> IsSpace(s[k]))
      && (forall k :: i + |r| <= k < |s| ==> IsSpace(s[k]))
    ensures r == [] || (!IsSpace(r[0]) && !IsSpace(r[|r| - 1]))
  {
    var i := SkipSpaces(s, 0);
    var j := SkipSpacesBack(s, i, |s|);
    assert j == i || !IsSpace(s[i]);
    s[i..j]
  }

  /** Every character is white space (vacuously so for ""). */
  predicate Blank(s: string)
  {
    forall k :: 0 <= k < |s| ==> IsSpace(s[k])
  }

  /** A string trims to "" exactly when it is blank. */
  lemma TrimEmptyIffBlank(s: string)
    ensures Trim(s) == [] <==> Blank(s)
  {
  }

  /** Neither starts nor ends with white space. */
  predicate Trimmed(s: string)
  {
    s == [] || (!IsSpace(s[0]) && !IsSpace(s[|s| - 1]))
  }

  /** Trimming a string that already has no surrounding white space changes nothing. */
  lemma TrimTrimmed(s: string)
    requires Trimmed(s)
    ensures Trim(s) == s
  {
  }
}

=== FILE: summary.dfy ===
/**
 * The summary panel (`updateSummary`) and the pie chart's two slices (`updateCharts`).
 * The summary splits on `type === "income"` and counts everything else as expense; the
 * pie matches "income" and "expense" exactly, so a record of any other type is in
 * neither slice. Both scripts do the same here.
 */
module Summary {
  import opened Wrappers
  import opened Transactions

  /** The three figures of the summary panel. */
  datatype SummaryView = SummaryView(income: real, expense: real, net: real)

  /** The `forEach` with the ternary: `(income, expense)` after visiting every record of `s`. */
  function SummaryFold(s: seq<Transaction>): (r: (real, real))
    ensures r.0 == Total(OfKind(s, INCOME))
    ensures r.1 == Total(NotOfKind(s, INCOME))
  {
    if s == [] then (0.0, 0.0)
    else
      var p := SummaryFold(s[..|s| - 1]);
      var t := s[|s| - 1];
      if t.kind == INCOME then (p.0 + t.amount, p.1) else (p.0, p.1 + t.amount)
  }

  /** `updateSummary`: income, expense and net balance. */
  function UpdateSummary(s: seq<Transaction>): (r: SummaryView)
    ensures r.income == Total(OfKind(s, INCOME))
    ensures r.expense == Total(NotOfKind(s, INCOME))
    ensures r.net == r.income - r.expense
    ensures r.income + r.expense == Total(s)
  {
    KindSplit(s, INCOME);
    var (income, expense) := SummaryFold(s);
    SummaryView(income, expense, income - expense)
  }

  /** The pie chart's data: `[income, expense]` by exact type match. */
  function PieSlices(s: seq<Transaction>): (r: (real, real))
    ensures r.0 + r.1 + Total(OtherKinds(s)) == Total(s)
  {
    KindSplit(s, INCOME);
    KindSplit(NotOfKind(s, INCOME), EXPENSE);
    NotIncomeExpensesAreExpenses(s);
    (Total(OfKind(s, INCOME)), Total(Expenses(s)))
  }

  lemma {:induction false} NotIncomeExpensesAreExpenses(s: seq<Transaction>)
    ensures OfKind(NotOfKind(s, INCOME), EXPENSE) == Expenses(s)
  {
    if s != [] {
      NotIncomeExpensesAreExpenses(s[..|s| - 1]);
    }
  }

  /**
   * How the summary and the pie relate: the incomes agree, and the summary's expense is
   * the pie's expense slice plus every record whose type is neither "income" nor "expense".
   */
  lemma SummaryVersusPie(s: seq<Transaction>)
    ensures UpdateSummary(s).income == PieSlices(s).0
    ensures UpdateSummary(s).expense == PieSlices(s).1 + Total(OtherKinds(s))
  {
    KindSplit(NotOfKind(s, INCOME), EXPENSE);
    NotIncomeExpensesAreExpenses(s);
  }

  lemma {:induction false} NotOfOnlyKindIsEmpty(s: seq<Transaction>, k: string)
    requires forall t :: t in s ==> t.kind == k
    ensures NotOfKind(s, k) == []
  {
    if s != [] {
      assert s[|s| - 1] in s;
      NotOfOnlyKindIsEmpty(s[..|s| - 1], k);
    }
  }

  lemma {:induction false} WellKindedHasNoOthers(s: seq<Transaction>)
    requires WellKinded(s)
    ensures Total(OtherKinds(s)) == 0.0
  {
    NotOfOnlyKindIsEmpty(NotOfKind(s, INCOME), EXPENSE);
  }

  /** When every record is typed "income" or "expense", the summary and the pie agree. */
  lemma SummaryAgreesWithPie(s: seq<Transaction>)
    requires WellKinded(s)
    ensures UpdateSummary(s).income == PieSlices(s).0
    ensures UpdateSummary(s).expense == PieSlices(s).1
  {
    SummaryVersusPie(s);
    WellKindedHasNoOthers(s);
  }

  /** A record typed "Expense" is an expense to the summary panel but in neither pie slice. */
  lemma SummaryAndPieDisagreeOnOtherTypes()
    ensures var s := [Transaction(1, "Expense", "Food", 250.0, "2024-05-01", None)];
      UpdateSummary(s).expense == 250.0 && PieSlices(s) == (0.0, 0.0)
  {
    var s := [Transaction(1, "Expense", "Food", 250.0, "2024-05-01", None)];
    assert s[..0] == [];
    assert OfKind(s, INCOME) == [];
    assert OfKind(s, EXPENSE) == [];
    assert NotOfKind(s, INCOME) == s;
  }
}

=== FILE: sync.dfy ===
/**
 * The two sides together: the form's PUT body as the service deserialises it, what a saved
 * edit stores, and what an edit-then-save without changes does to the stored record.
 */
module Sync {
  import opened Wrappers
  import opened Strings
  import opened Transactions
  import opened EditForm
  import opened Controller

  /** `JSON.stringify(tx)` read back by the service: no id, the description always present. */
  function BodyOf(d: Draft): Body
  {
    Body(None, d.kind, d.category, d.amount, d.date, Some(d.description))
  }

  /**
   * Saving an acceptable form in edit mode PUTs the trimmed draft to the edited id, and the
   * service then stores, under that id, the record with the typed type, amount and date,
   * the trimmed category and the trimmed description; every other record stays as it was.
   */
  lemma SubmittedEditIsStored(store: Store, id: int, f: FormFields)
    requires WellFormed(store) && id in store
    requires f.kind != "" && !Blank(f.category) && f.amount > 0.0
    ensures var d := ReadForm(f);
      && Submit(EditState(Some(id)), f) == (Initial, [Put(id, d), Reload])
      && Update(store, id, BodyOf(d)).Success?
      && var s' := Update(store, id, BodyOf(d)).value.0;
         && s'[id] == Transaction(id, f.kind, Trim(f.category), f.amount, f.date, Some(Trim(f.description)))
         && WellFormed(s')
         && forall k :: k in store && k != id ==> k in s' && s'[k] == store[k]
  {
  }

  /**
   * Clicking edit on a listed record and saving the form untouched sends a PUT to that
   * record's id, leaves edit mode, and the service's update stores the record unchanged.
   */
  lemma EditSaveWithoutChangesKeepsRecord(store: Store, all: seq<Transaction>, st: EditState, id: int)
    requires WellFormed(store) && id in store
    requires store[id] in all && Resubmittable(store[id])
    requires forall u :: u in all && u.id == id ==> u == store[id]
    ensures var t := store[id];
      var d := Draft(t.kind, t.category, t.amount, t.date, t.description.value);
      && EditTransaction(st, all, id) == (EditState(Some(id)), Some(FormOf(t)))
      && Submit(EditState(Some(id)), FormOf(t)) == (Initial, [Put(id, d), Reload])
      && Update(store, id, BodyOf(d)) == Success((store, t))
  {
    var t := store[id];
    EditThenResubmit(st, all, t);
    var d := Draft(t.kind, t.category, t.amount, t.date, t.description.value);
    UpdateWithStoredValues(store, id, BodyOf(d));
  }
}

=== FILE: transactions.dfy ===
/**
 * The transaction record shared by the REST service and both front-end scripts,
 * and the folds and filters over lists of them that the aggregations are built from.
 * Amounts are exact decimals (`real`); every fold runs front to back like `forEach`.
 */
module Transactions {
  import opened Wrappers
  import opened Strings

  /** The `type` value of an income record. */
  const INCOME: string := "income"
  /** The `type` value of an expense record. */
  const EXPENSE: string := "expense"

  /**
   * A transaction: server-assigned id, `type` (named `kind` here), free-text category,
   * amount, an ISO `YYYY-MM-DD` date and an optional description.
   */
  datatype Transaction = Transaction(
    id: int,
    kind: string,
    category: string,
    amount: real,
    date: string,
    description: Option<string>)

  /** `reduce((s, t) => s + t.amount, 0)`. */
  function Total(s: seq<Transaction>): real
  {
    if s == [] then 0.0 else Total(s[..|s| - 1]) + s[|s| - 1].amount
  }

  /** `filter(t => t.type === k)`. */
  function OfKind(s: seq<Transaction>, k: string): (r: seq<Transaction>)
    ensures |r| <= |s|
  {
    if s == [] then []
    else
      var p := OfKind(s[..|s| - 1], k);
      var t := s[|s| - 1];
      if t.kind == k then p + [t] else p
  }

  /** The records `OfKind` keeps are exactly the records of `s` of kind `k`. */
  lemma {:induction false} OfKindMembers(s: seq<Transaction>, k: string)
    ensures forall t :: t in OfKind(s, k) <==> t in s && t.kind == k
  {
    if s != [] {
      OfKindMembers(s[..|s| - 1], k);
      assert s == s[..|s| - 1] + [s[|s| - 1]];
    }
  }

  /** The records whose type is anything but `k`. */
  function NotOfKind(s: seq<Transaction>, k: string): (r: seq<Transaction>)
    ensures |r| <= |s|
    ensures forall t :: t in r <==> t in s && t.kind != k
  {
    if s == [] then []
    else
      var p := NotOfKind(s[..|s| - 1], k);
      var t := s[|s| - 1];
      assert s == s[..|s| - 1] + [t];
      if t.kind != k then p + [t] else p
  }

  /** `filter(t => t.type === "expense")`. */
  function Expenses(s: seq<Transaction>): seq<Transaction>
  {
    OfKind(s, EXPENSE)
  }

  /** The records whose type is neither "income" nor "expense". */
  function OtherKinds(s: seq<Transaction>): (r: seq<Transaction>)
    ensures forall t :: t in r <==> t in s && t.kind != INCOME && t.kind != EXPENSE
  {
    NotOfKind(NotOfKind(s, INCOME), EXPENSE)
  }

  /** Splitting on a kind partitions the amounts: nothing is lost or counted twice. */
  lemma {:induction false} KindSplit(s: seq<Transaction>, k: string)
    ensures Total(OfKind(s, k)) + Total(NotOfKind(s, k)) == Total(s)
  {
    if s != [] {
      KindSplit(s[..|s| - 1], k);
    }
  }

  /** Every record is a well-formed income or expense record. */
  predicate WellKinded(s: seq<Transaction>)
  {
    forall t :: t in s ==> t.kind == INCOME || t.kind == EXPENSE
  }

  /** The grouping key of the category breakdowns. */
  function CategoryOf(t: Transaction): string
  {
    t.category
  }

  /** `t.date.substring(0, 7)`: the `YYYY-MM` month of an ISO date. */
  function MonthOf(t: Transaction): string
  {
    Take(t.date, 7)
  }

  /** The date ordering the frontend's sort comparator uses. */
  function DateOf(t: Transaction): string
  {
    t.date
  }

  /** For a seven-character month, `date.startsWith(month)` and `date.substring(0, 7) === month` agree. */
  lemma MonthOfIffStartsWith(t: Transaction, month: string)
    requires |month| == 7
    ensures StartsWith(t.date, month) <==> MonthOf(t) == month
  {
  }
}

=== FILE: wrappers.dfy ===
/** Optional values and outcomes, used across the model. */
module Wrappers {

  /** A value that may be absent: JavaScript's `null`/`undefined`, Java's `null`. */
  datatype Option<+T> = None | Some(value: T) {

    /** The wrapped value, or `default` when absent (JavaScript's `x || default` for strings). */
    function GetOr(default: T): T
    {
      match this
      case Some(v) => v
      case None => default
    }
  }

  /** The outcome of an operation that may throw: a value, or the exception's message. */
  datatype Result<+R> = Success(value: R) | Failure(error: string)
}
